=== FILE: README.md ===
# Chess UI — a Dafny model of its core logic

The application is a browser chess game. It has three parts:

- `ChessGame` (game.js) plays against the Stockfish engine. It routes each line the engine prints to one handler, parses a best move, a centipawn score or a hint from it, and sends the engine its commands. It also runs a ten-minute game clock, shows the game status and lists the moves played.
- `ChessBoard` (chess.js) is a plain two-player board. It names and shades the 64 cells, in the normal and the flipped orientation, and lets a player pick a piece and then its target.
- script.js is a stand-alone toy board. It moves pieces with no rules at all, and its placeholder opponent pushes one black piece a row down.

The chess rules library and the engine process are outside the model. The rules library's answers about a position are inputs: `Selection.Rules` and `GameStatus.Report`. The engine's output lines are strings, and its commands are values of `Uci.Command`.

Modules:

- `Wrappers`: `Option`.
- `Strings`: the JavaScript string operations the code relies on. These are `split`, `indexOf`, `substring`, `padStart`, decimal rendering and `parseInt` of digits.
- `Sides`: the two colours.
- `Uci`: engine-line routing and parsing, evaluation bands, the difficulty and think-time tables, and the command stream.
- `Clock`: the game clock.
- `GameStatus`: the status banner and the move-history panel.
- `Geometry`: cell naming, shading, labels, flipping and piece placement.
- `Selection`: the click state machines of both controllers, and what follows a played move.
- `ToyBoard`: script.js.

Three behaviours of the code are easy to misread, and the model states them as they are:

- **One handler per line.** Each engine line reaches at most one handler. An `info` line carrying both `score cp` and `pv` only updates the evaluation, and never shows a hint (`Uci.ScoreLineNeverHints`, `Uci.ScoreAndPvLine`).
- **Out-of-range difficulty levels.** Only the think time falls back to level 2's value. The skill level is clamped to 0..20 instead (`Uci.OutOfRangeLevel`).
- **No engine-session machinery.** Requests have no timeouts, pending listeners are never cancelled, and move tokens are not validated: an empty or over-long token is split as it is (`Uci.BestMoveEmptyField`, `Uci.LongTokenTruncated`).

## Model

| member | source | states |
|---|---|---|
| Uci.RouteCharacterised | game.js:317-331 | each engine line reaches at most one handler: a `bestmove` prefix wins; then an `info` line containing `score cp`; then an `info` line containing `pv`; any other line is ignored (both directions of each case) |
| Uci.PlayMoveOnlyFromBestMove | game.js:319-325 | a move is played exactly for a `bestmove` line whose second space-separated field exists and is not `null`, and the move is that field's split |
| Uci.ScoreLineNeverHints | game.js:326-330 | an `info` line with `score cp` never shows a hint or plays a move, even when it carries `pv`; it shows an evaluation exactly when the score pattern matches |
| Uci.HintOnlyWithoutScore | game.js:326-330 | a hint is shown exactly for an `info` line with `pv`, without `score cp`, on which the hint pattern matches |
| Uci.HandleLine | game.js:317-331 | a played move comes from a `bestmove` line and is the split of its token; an evaluation comes from an `info` line with `score cp`, shows the score read from it and that score's band; a hint comes from an `info` line with `pv` and no `score cp`, and shows the split of the token read from it; a line starting with neither keyword does nothing |
| Uci.OtherLinesIgnored | game.js:317-331 | a line starting with neither `bestmove` nor `info` does nothing |
| Uci.BestMoveLine | game.js:320-325 | a `bestmove` line plays its space-free second field, whatever follows it, and does nothing when that field is `null` |
| Uci.ScoreLineEvaluates | game.js:326-358 | an `info` line with `score cp` shows the band of the score read from it, and does nothing when no score can be read |
| Uci.PvLineHints | game.js:328-366 | an `info` line with `pv` and no `score cp` shows the hint read from it, and does nothing when no token follows `pv ` |
| Uci.BestMoveToken | game.js:320-323 | the token taken from a `bestmove` line is space-free and never `null`; a line without a space yields none |
| Uci.BestMoveTokenOfLine | game.js:320-324 | whatever follows a space after it, the token written after `bestmove ` is read back, and `null` yields no move |
| Uci.MoveOfToken | game.js:335-339 | from is characters 0-1 and to is characters 2-3 of the token; promotion is character 4, or `q` when the token has no fifth character; a shorter token is split without complaint: its first two characters (all of it, if it has fewer) are the from square and the rest is the to square |
| Uci.MoveOfTokenOfMove | game.js:335-339 | splitting the token of a move with two-character squares and a one-character promotion gives that move back |
| Uci.TokenOfMoveOfToken | game.js:335-339 | every five-character token is the token of the move it yields |
| Uci.MoveOfFourCharToken | game.js:338 | a four-character token is promoted to a queen by default |
| Uci.LongTokenTruncated | game.js:335-339 | characters after the fifth are ignored |
| Uci.ParseScore | game.js:353-358 | the score is the value of the leftmost match of `score cp (-?\d+)` (an optional minus sign, then the longest run of digits); there is none exactly when nothing matches |
| Uci.ParseScoreOfLine | game.js:354-356 | any integer written after `score cp ` is read back exactly, whatever precedes it (`seldepth` included), provided `score cp ` does not start earlier in the line and no digit follows the number |
| Uci.SeldepthLineEvaluates | game.js:326-358 | `info depth 1 seldepth 1 multipv 1 score cp 112 nodes 20 pv e2e4` reads the score 112 and shows White as better |
| Uci.HintToken | game.js:361-364 | the hint token is the longest run of non-white-space after the leftmost `pv ` that is followed by non-white-space; it is non-empty and white-space-free; there is none exactly when no such `pv ` exists |
| Uci.HintTokenOfLine | game.js:362-364 | a token written after `pv ` is read back, whatever precedes it, provided `pv ` does not start earlier in the line and white space or the end follows the token |
| Strings.JoinOfSplit | game.js:321 | joining the pieces of `split(' ')` with a space gives the line back |
| Strings.SplitOfJoin | game.js:321 | splitting pieces joined with a space gives exactly those pieces back, so the second field is well defined |
| Uci.HintOf | game.js:365-366 | the hint's squares are characters 0-1 and 2-3 of the token; a shorter token gives its first two characters (all of it, if it has fewer) as the from square and the rest as the to square |
| Uci.BandOf | game.js:460-476 | the evaluation message, in centipawns: White winning above 200, Black winning below -200, White better above 50, Black better below -50, otherwise equal (each as an interval, both directions) |
| Uci.BandMonotone | game.js:464-476 | a better score never shows a band less favourable to White |
| Uci.BandAntisymmetric | game.js:464-476 | negating the score mirrors the band |
| Uci.BestMoveWithPromotion | game.js:319-339 | `bestmove e7e8q` plays e7-e8 promoting to a queen |
| Uci.BestMoveWithPonder | game.js:319-339 | `bestmove e2e4 ponder e7e5` plays e2-e4, with the default `q` promotion |
| Uci.BestMoveNull | game.js:321-322 | `bestmove null` does nothing |
| Uci.BestMoveEmptyField | game.js:321-339 | `bestmove ` with an empty second field still plays a move with empty squares |
| Uci.ScoreAndPvLine | game.js:317-358 | `info depth 12 score cp -35 pv e7e5` only shows the evaluation -35, as equal |
| Uci.MateLineHintsMultipv | game.js:317-366 | a mate-score line goes to the hint handler, and the first `pv ` in `multipv 1` makes the hint `1` |
| Uci.SkillLevel | game.js:132-133 | the skill level lies in 0..20; it is `(level - 1) * 5` for levels 1..5, 0 below and 20 above |
| Uci.SkillLevelMonotone | game.js:132-133 | the skill level never decreases as the level rises |
| Uci.MoveTimeMs | game.js:310-312 | the think time is one of 1000, 2000, 3000 and 5000 ms, and 2000 for any level outside 1..4 |
| Uci.DifficultyIncreasing | game.js:311-312 | among levels 1..4, a higher level thinks strictly longer and has a strictly higher skill level |
| Uci.OutOfRangeLevel | game.js:311-312 | outside 1..4 the think time is level 2's, while the skill level is clamped rather than reset |
| Uci.Render | game.js:114-133 | the command texts the engine receives: `uci`, `eval` and `stop` exactly for those commands; a `setoption` text carries the option's name after `setoption name `, then ` value `, then digits without a leading zero that read back as the value; `position fen ` is followed by exactly the FEN; `go movetime ` and `go depth ` are followed by at least one digit, with no leading zero, and those digits read back as the time and the depth |
| Uci.SetOptionValueReadable | game.js:133 | the last field of a rendered `setoption` command reads back as the value sent |
| Uci.Emit | game.js:114-495 | the commands each event posts: the handshake sends `uci` and the `Skill Level` of level 2 (lines 115-117); the delayed options set Contempt 0, Min Split Depth 0, Threads 1 and Hash 16 (121-124); a level change sets `Skill Level` to the level's skill value (133); the engine's turn sends the position and then `go movetime` with the level's time, and nothing once the game is over (304-315); an evaluation sends the position and `eval` (481-484); a hint sends the position and `go depth 6` while the game is active, and `stop` after it (486-495); every search command directly follows a `position fen` |
| Uci.SkillLevelSent | game.js:114-133 | the start-up handshake and every level change send an option that the engine reads back as `Skill Level` with the level's skill value, 5 at start-up and never above 20 |
| Uci.EmitAllSearchesPositioned | game.js:481-495 | for any sequence of events, every `go` or `eval` the engine receives directly follows the position to search |
| Clock.Tick | game.js:620-645 | a firing on an inactive game stops the timer and charges nobody; otherwise only the side to move loses a second; White running out is examined before Black; a flag fall stops the timer and ends the game, and nothing else does |
| Clock.TickPreservesValid | game.js:620-645 | no time becomes negative, and a running clock has time left on both sides |
| Clock.RunPreservesValid | game.js:620-645 | any sequence of firings keeps the clock valid |
| Clock.StoppedStaysStopped | game.js:611-623 | once the timer is stopped, later firings change nothing |
| Clock.RunningClockCharged | game.js:626-630 | a clock still running after n firings has lost exactly n seconds in total and has at least a second left on each side |
| Clock.FreshClockStops | game.js:599-645 | from ten minutes a side, the timer stops within 1199 firings |
| Clock.Format | game.js:604-609 | the display is digits, a colon and exactly two digits, and the minutes field has no leading zero unless it is the single digit `0` |
| Clock.FormatUnique | game.js:604-609 | the display is the only text of that shape, with minutes free of leading zeros, that reads back as the remaining time, so it is exactly `floor(t/60)`, a colon and `t % 60` padded to two digits |
| Strings.NatToStringOfDigitsValue | game.js:606-608 | every digit string without leading zeros is the rendering of its value, so the display determines the time |
| Clock.ParseDisplayOfFormat | game.js:604-609 | reading a display back as minutes times 60 plus seconds gives exactly the remaining time |
| Clock.ParseDisplayOfFields | game.js:604-609 | a minutes field, a colon and a two-digit seconds field below 60 read back as minutes times 60 plus seconds |
| Clock.StartTimerAsWritten | game.js:599-620 | each press of start keeps every interval already installed, in order, and adds one fresh running interval after them |
| Clock.RestartKeepsOldTimer | game.js:599-620 | after two presses of start, two intervals are running |
| Clock.StartTimer | game.js:599-620 | the corrected restart leaves exactly one running interval, at ten minutes a side |
| Clock.RestartsLeaveOneTimer | game.js:599-620 | with the corrected restart, any number of presses leaves exactly one fresh interval |
| GameStatus.DrawReasonOf | game.js:453-458 | the draw reason is stalemate, threefold repetition or insufficient material, whichever applies first, else a plain draw (both directions) |
| GameStatus.Update | game.js:434-451 | checkmate before draw before check; mate names the side not to move as the winner; a draw shows the reason `DrawReasonOf` gives; mate and draw deactivate the game; check leaves the active flag as it was; a quiet position activates it |
| GameStatus.UpdateIdempotent | game.js:434-451 | refreshing the status twice on the same position changes nothing the second time |
| GameStatus.ActiveAfterUpdate | game.js:434-451 | an active game stays active exactly when the position is not over; an inactive one is revived only by a quiet position |
| GameStatus.History | game.js:397-432 | reading the history rows back gives the move list; there are ceil(n/2) rows numbered from 1; every row but the last has Black's reply; the last lacks it exactly when the number of moves is odd |
| Geometry.SquareAtNormal | chess.js:20-36 | unflipped, cell (row, col) is the file letter with code 97+col and the rank digit 8-row |
| Geometry.SquareAtFlipped | chess.js:23-36 | flipped, cell (row, col) shows the square of the unflipped cell (7-row, 7-col) |
| Geometry.CellOf | chess.js:20-36 | locating a name succeeds exactly for a file letter a-h followed by a rank digit 1-8, and gives a cell on the board |
| Geometry.LayoutTurned | chess.js:23-36 | the two orientations' layouts are each other turned half way round |
| Geometry.CellOfSquareAt | chess.js:28-36 | every cell carries a well-formed square name, and locating that name leads back to the same cell |
| Geometry.SquareAtOfCellOf | chess.js:28-36 | every well-formed square name is drawn on the cell where it is located |
| Geometry.SquareAtInjective | chess.js:28-36 | no two cells carry the same square |
| Geometry.ShadeOfSquare | chess.js:34 | a cell is drawn light exactly when its square is light (a1 dark), in both orientations, so a flip never recolours a square |
| Geometry.CoordinatesNameSquare | chess.js:47-63 | file letters appear only on the bottom row and rank digits only in the left column, each naming the square it sits on |
| Geometry.Flip | chess.js:256-260 | the flip button toggles the orientation, so two presses restore the layout, and each press turns the layout half way round |
| Geometry.PlacementIsNormalSquare | chess.js:183-186 | the square visited at step (rank, file) when placing pieces is the unflipped cell's square, whatever the orientation |
| Geometry.PlacementVisitsEverySquareOnce | chess.js:183-186 | placement visits 64 distinct squares, and they are exactly the well-formed square names |
| Selection.FindMoveIndex | chess.js:165-168 | the index found is that of the first legal move from `from` to `to`; there is none exactly when no listed move matches |
| Selection.FindMove | chess.js:165-168 | the move found is a listed move from `from` to `to`, and there is none exactly when no listed move matches |
| Selection.PlayerPieceIsTurnColour | chess.js:251-254 | a piece is the player's exactly when its colour letter is that of the side to move |
| Selection.Click | chess.js:130-178 | with another square selected, a click only attempts a move: when a legal move from the selected square to the clicked one exists, the first such move is played if the rules library accepts it, which clears the selection, and a refusal keeps the selection unchanged; with no such move the selection is kept too; otherwise the click selects exactly a piece of the side to move (loading its legal moves) and clears the selection on any other square |
| Selection.ClickKeepsConsistent | chess.js:130-156 | a click keeps the selection consistent with the position: nothing selected with nothing highlighted, or a piece of the side to move with its legal moves highlighted |
| Selection.GameClick | game.js:225-276 | no click does anything after the game ends; in an active game, when a legal move from the selected square to the clicked one exists, the first such move is played if the rules library accepts it (clearing the selection), and a refusal changes nothing; any other click selects exactly a piece of the human player's colour, loading its legal moves, and clears the selection elsewhere |
| Selection.IsOwnPiece | game.js:240-242 | a piece is the human player's exactly when its colour letter is the player's, the plain board's test applied to the player's side |
| Selection.ReselectDiffers | game.js:225-258 | when a piece is selected, a click on another own piece with no move there keeps the old selection on the plain board, but selects the clicked piece in the engine game |
| Selection.AfterPlayerMove | game.js:278-302 | after the player's move the status is refreshed; a finished game asks for nothing; while the game goes on, the requests are exactly an evaluation of the position, followed by the engine's move when it is now the engine's turn |
| Selection.NoRequestsAfterGameEnds | game.js:286-297 | a move that ends the game asks the engine nothing |
| Selection.AfterEngineMove | game.js:333-351 | after the engine's move the status is refreshed and an evaluation is always requested |
| Selection.EvaluationAfterEngineMate | game.js:341-346 | after a mating move, the engine's side still sends `position fen` and `eval`, while the player's side sends nothing |
| Selection.NewGame | game.js:497-512 | a new game clears the selection and refreshes the status on a game made active again; when the human plays Black, exactly one request follows, the engine's move, and none otherwise |
| Selection.NewGameOpening | game.js:497-512 | from a quiet starting position the game is active; a human playing Black makes the engine receive the position and then `go movetime` with the level's time, and a human playing White sends nothing |
| Selection.Undo | game.js:514-533 | with two or more moves played the last two are taken back, the status refreshed and an evaluation requested; with one move it is taken back and the status refreshed, with no request; with none nothing happens |
| Selection.UndoTakesBackExchange | game.js:517-523 | taking back after the player's move and the engine's reply restores exactly the moves before them, so the same side is to move |
| Selection.UndoRevivesFinishedGame | game.js:514-533 | the take-back has no game-over guard: taking a move back into a quiet position makes a finished game active again |
| ToyBoard.InitialWellFormed | script.js:6-15 | the starting board is 8x8 and holds only piece letters and empty squares |
| ToyBoard.InitialCount | script.js:6-15 | the starting board holds 32 pieces |
| ToyBoard.InitialSides | script.js:6-15 | the starting board has black (lower-case) pieces on rows 0 and 1, free squares on rows 2 to 5, and white pieces on rows 6 and 7, each the upper-case letter of the black piece in the same column |
| ToyBoard.SetCell | script.js:44-45 | writing one square changes only that square, and the piece count by the difference |
| ToyBoard.Move | script.js:43-46 | the target gets the source's contents and the source is emptied; every other square is unchanged; a move onto the same square erases the piece; the count drops exactly by the piece that was overwritten |
| ToyBoard.MoveKeepsWellFormed | script.js:43-46 | a move keeps the board made of piece letters and empty squares |
| ToyBoard.MoveCaptures | script.js:43-46 | moving a piece removes one piece exactly when it lands on an occupied square or its own square, and none otherwise |
| ToyBoard.ClickSquare | script.js:32-42 | with a square picked up, a click moves its contents there unconditionally, drops the pick and schedules the opponent; otherwise it picks up exactly an occupied square |
| ToyBoard.ClickKeepsBoard | script.js:32-42 | clicking keeps the board well formed, and only an occupied square is picked up |
| ToyBoard.BlackCellIsLowerLetter | script.js:51 | on a well-formed board, the squares that lower-casing leaves unchanged are exactly the black pieces |
| ToyBoard.RowCandidates | script.js:50-55 | the pushes found in one row are exactly that row's black pieces with a free square below |
| ToyBoard.CandidatesFrom | script.js:50-55 | the pushes found from a row downwards are exactly the candidate pushes there |
| ToyBoard.Candidates | script.js:49-56 | the candidates are exactly the pushes of a black piece one row down onto a free square, all in bounds |
| ToyBoard.AiMove | script.js:57-61 | with no candidate the board is unchanged; otherwise it changes by one candidate push, which never takes a piece |
| ToyBoard.AiMoveKeepsWellFormed | script.js:57-61 | the opponent keeps the board well formed |
| ToyBoard.AiMovePushesBlack | script.js:49-61 | the piece the opponent moves is black and lands one row down in the same column |
| ToyBoard.InitialCandidates | script.js:49-56 | from the starting board the candidates are exactly the eight black pawn pushes |

## Left out

- The chess rules library. Legality, FEN, undo, and check, mate and draw detection are outside the model. Its answers are inputs to the model: `Selection.Rules` and `GameStatus.Report`.
- The engine worker: creating it, posting to it and receiving from it. Lines are inputs and commands are values.
- `setTimeout` and `setInterval` scheduling. This covers the 100 ms delayed options, the 500 ms and 1000 ms delays before the engine's move, and the one-second `stop` after a hint. The clock is a pure step function (`Clock.Tick`), and a delayed request is a separate `Uci.Request` value.
- Floating point: `score / 100` and `toFixed(1)`. Bands are computed on integer centipawns, and for integers `cp / 100 > 2` holds exactly when `cp > 200`.
- The DOM, CSS classes, Bootstrap modals, the Persian message texts, piece glyphs, highlighting and drag-and-drop. Statuses are enumerations, and the hint dialog is a `Uci.Hint`.
- Saving and loading games through files and JSON. This is browser file I/O.
- The DOM side of `newGame` and `undoMove`: redrawing the pieces and the history, and resetting the evaluation panel's text. Resetting the rules library and undoing its moves are the library's own, so the model takes the position after them as input.
- The depth table in `setStockfishLevel`. It is computed and never used.
- ai.js, a simulated opponent that draws a random move from the rules library.
- `Math.random`. In `ToyBoard.AiMove` it is a parameter `pick`, reduced modulo the number of candidates.
- Uci.ParseScore: the digits are read as an unbounded integer, and the precision `parseInt` loses beyond 2^53 is not modelled.
- ToyBoard.LowerAscii: only ASCII letters are lower-cased. That is exact for the board's piece letters, but not Unicode's full `toLowerCase`.
- Clock.Format: defined on non-negative times only. A valid clock never holds a negative time (`Clock.TickPreservesValid`).

## Findings

| source | as written | input that shows it | evidently intended | confidence | as-written member | corrected member |
|---|---|---|---|---|---|---|
| game.js:599-620 | the clean-up before a new interval is installed clears a handle declared empty in the same call, so an earlier interval is never cleared | pressing the start-timer button twice: both intervals keep charging their own clocks and writing the display | restarting replaces the running interval with one fresh ten-minute clock | high, not executed | Clock.StartTimerAsWritten | Clock.StartTimer |

=== FILE: clock.dfy ===
/** The game clock started by the "start timer" button: ten minutes a side,
    a one-second interval that charges the side to move, and the `m:ss`
    display.  The interval itself is not modelled; `Tick` is one firing. */
module Clock {
  import opened Wrappers
  import opened Strings
  import opened Sides

  /** Seconds each side starts with. */
  const StartSeconds: nat := 600

  /** Both remaining times and whether the interval is still installed. */
  datatype ClockState = ClockState(white: int, black: int, running: bool)

  function Fresh(): ClockState {
    ClockState(StartSeconds, StartSeconds, true)
  }

  /** The clock after a firing, the game's active flag, and the side whose
      time ran out, if one did. */
  datatype TickOutcome = TickOutcome(clock: ClockState, gameActive: bool, flagFall: Option<Color>)

  /** One firing of the interval.  An inactive game stops the timer without
      charging anyone; otherwise the side to move loses a second, and a time
      at or below zero (White's examined first) stops the timer and ends the
      game.  A stopped timer does not fire. */
  function Tick(c: ClockState, gameActive: bool, turn: Color): (o: TickOutcome)
    ensures !c.running ==> o == TickOutcome(c, gameActive, None)
    ensures c.running && !gameActive
        ==> o == TickOutcome(c.(running := false), false, None)
    ensures c.running && gameActive && turn == White
        ==> o.clock.white == c.white - 1 && o.clock.black == c.black
    ensures c.running && gameActive && turn == Black
        ==> o.clock.black == c.black - 1 && o.clock.white == c.white
    ensures c.running && gameActive
        ==> && (o.flagFall == Some(White) <==> o.clock.white <= 0)
            && (o.flagFall == Some(Black) <==> o.clock.white > 0 && o.clock.black <= 0)
            && o.clock.running == o.gameActive == o.flagFall.None?
  {
    if !c.running then TickOutcome(c, gameActive, None)
    else if !gameActive then TickOutcome(c.(running := false), false, None)
    else
      var charged :=
        if turn == White then c.(white := c.white - 1) else c.(black := c.black - 1);
      if charged.white <= 0 then TickOutcome(charged.(running := false), false, Some(White))
      else if charged.black <= 0 then TickOutcome(charged.(running := false), false, Some(Black))
      else TickOutcome(charged, true, None)
  }

  /** No time is negative, and a running clock has time left on both sides. */
  predicate Valid(c: ClockState) {
    c.white >= 0 && c.black >= 0 && (c.running ==> c.white > 0 && c.black > 0)
  }

  lemma TickPreservesValid(c: ClockState, gameActive: bool, turn: Color)
    requires Valid(c)
    ensures Valid(Tick(c, gameActive, turn).clock)
  {
  }

  /** The clock after a sequence of firings, each seeing whether the game is
      active and whose turn it is at that second. */
  function Run(c: ClockState, steps: seq<(bool, Color)>): ClockState
    decreases |steps|
  {
    if |steps| == 0 then c
    else Run(Tick(c, steps[0].0, steps[0].1).clock, steps[1..])
  }

  lemma {:induction false} RunPreservesValid(c: ClockState, steps: seq<(bool, Color)>)
    requires Valid(c)
    ensures Valid(Run(c, steps))
    decreases |steps|
  {
    if |steps| > 0 {
      TickPreservesValid(c, steps[0].0, steps[0].1);
      RunPreservesValid(Tick(c, steps[0].0, steps[0].1).clock, steps[1..]);
    }
  }

  /** Every firing that leaves the clock running took exactly one second off
      the total, so a clock still running after `n` firings has lost `n`
      seconds and still shows at least one on each side. */
  lemma {:induction false} RunningClockCharged(c: ClockState, steps: seq<(bool, Color)>)
    requires Valid(c)
    requires Run(c, steps).running
    ensures Run(c, steps).white + Run(c, steps).black == c.white + c.black - |steps|
    ensures |steps| <= c.white + c.black - 2
    ensures Run(c, steps).white >= 1 && Run(c, steps).black >= 1
    decreases |steps|
  {
    RunPreservesValid(c, steps);
    if |steps| > 0 {
      var next := Tick(c, steps[0].0, steps[0].1).clock;
      TickPreservesValid(c, steps[0].0, steps[0].1);
      if !next.running {
        StoppedStaysStopped(next, steps[1..]);
      }
      RunningClockCharged(next, steps[1..]);
    }
  }

  lemma {:induction false} StoppedStaysStopped(c: ClockState, steps: seq<(bool, Color)>)
    requires !c.running
    ensures Run(c, steps) == c
    decreases |steps|
  {
    if |steps| > 0 {
      StoppedStaysStopped(c, steps[1..]);
    }
  }

  /** From a fresh clock the timer stops within 1199 firings. */
  lemma FreshClockStops(steps: seq<(bool, Color)>)
    requires |steps| >= 2 * StartSeconds - 1
    ensures !Run(Fresh(), steps).running
  {
    if Run(Fresh(), steps).running {
      RunningClockCharged(Fresh(), steps);
    }
  }

  /** The display of one side: whole minutes, a colon, and the seconds
      padded to two digits. */
  function Format(t: nat): (s: string)
    ensures var k := |s| - 3; k >= 1 && s[k] == ':' && IsDigits(s[..k]) && IsDigits(s[k + 1..])
    ensures var k := |s| - 3; k == 1 || s[0] != '0'
  {
    var minutes := NatToString(t / 60);
    var seconds := PadStart2(NatToString(t % 60));
    SecondsField(t % 60);
    var s := minutes + ":" + seconds;
    assert s[..|minutes|] == minutes && s[|minutes| + 1..] == seconds;
    s
  }

  /** The padded seconds field: two digits with the right value. */
  lemma SecondsField(n: nat)
    requires n < 60
    ensures var s := PadStart2(NatToString(n));
            |s| == 2 && IsDigits(s) && DigitsValue(s) == n
  {
    var digits := NatToString(n);
    DigitsValueOfNatToString(n);
    var s := PadStart2(digits);
    if |digits| == 1 {
      assert s == "0" + digits;
      assert s[..1] == "0";
    } else {
      assert n >= 10;
      assert |NatToString(n / 10)| == 1;
    }
  }

  /** Reads a display back: minutes, a colon, and two digits below 60. */
  function ParseDisplay(s: string): Option<nat> {
    ParseFields(Split(s, ':'))
  }

  /** The fields of a display, split at its colons. */
  function ParseFields(parts: seq<string>): Option<nat> {
    if |parts| == 2 && IsDigits(parts[0]) && IsDigits(parts[1]) && |parts[1]| == 2
       && DigitsValue(parts[1]) < 60
    then Some(DigitsValue(parts[0]) * 60 + DigitsValue(parts[1]))
    else None
  }

  /** A display made of a minutes field and a valid seconds field reads
      back as minutes times 60 plus seconds. */
  lemma ParseDisplayOfFields(minutes: string, seconds: string)
    requires IsDigits(minutes) && IsDigits(seconds) && |seconds| == 2 && DigitsValue(seconds) < 60
    ensures ParseDisplay(minutes + [':'] + seconds) == Some(DigitsValue(minutes) * 60 + DigitsValue(seconds))
  {
    DigitsExclude(minutes, ':');
    DigitsExclude(seconds, ':');
    SplitPair(minutes, ':', seconds);
    var parts := [minutes, seconds];
    assert parts[0] == minutes && parts[1] == seconds;
    assert ParseFields(parts) == Some(DigitsValue(minutes) * 60 + DigitsValue(seconds));
  }

  /** The display shows exactly the remaining time. */
  lemma ParseDisplayOfFormat(t: nat)
    ensures ParseDisplay(Format(t)) == Some(t)
  {
    var minutes := NatToString(t / 60);
    var seconds := PadStart2(NatToString(t % 60));
    SecondsField(t % 60);
    DigitsValueOfNatToString(t / 60);
    assert Format(t) == minutes + [':'] + seconds;
    ParseDisplayOfFields(minutes, seconds);
  }

  /** A two-digit seconds field below 60 is the padded rendering of its
      value. */
  lemma SecondsFieldOfDigits(seconds: string)
    requires |seconds| == 2 && IsDigits(seconds) && DigitsValue(seconds) < 60
    ensures PadStart2(NatToString(DigitsValue(seconds))) == seconds
  {
    var n := DigitsValue(seconds);
    assert seconds[..1][..0] == [];
    assert n == DigitValue(seconds[0]) * 10 + DigitValue(seconds[1]);
    if seconds[0] == '0' {
      assert NatToString(n) == [seconds[1]];
      assert seconds == "0" + [seconds[1]];
    } else {
      NatToStringOfDigitsValue(seconds);
    }
  }

  /** The display is the only text of its shape, minutes without leading
      zeros, that reads back as the remaining time. */
  lemma FormatUnique(s: string, t: nat)
    requires var k := |s| - 3; k >= 1 && s[k] == ':' && IsDigits(s[..k]) && IsDigits(s[k + 1..])
    requires var k := |s| - 3; k == 1 || s[0] != '0'
    requires ParseDisplay(s) == Some(t)
    ensures s == Format(t)
  {
    var k := |s| - 3;
    var minutes, seconds := s[..k], s[k + 1..];
    assert s == minutes + [':'] + seconds;
    DigitsExclude(minutes, ':');
    DigitsExclude(seconds, ':');
    SplitPair(minutes, ':', seconds);
    assert [minutes, seconds][1] == seconds;
    assert DigitsValue(seconds) < 60;
    assert t == DigitsValue(minutes) * 60 + DigitsValue(seconds);
    assert t / 60 == DigitsValue(minutes) && t % 60 == DigitsValue(seconds);
    NatToStringOfDigitsValue(minutes);
    SecondsFieldOfDigits(seconds);
    assert Format(t) == minutes + ":" + seconds;
  }

  /** How many of the installed intervals are still running. */
  function RunningCount(live: seq<ClockState>): nat {
    if |live| == 0 then 0
    else RunningCount(live[..|live| - 1]) + if live[|live| - 1].running then 1 else 0
  }

  /** As written, the clean-up at the start of the handler clears only the
      handler's own, still empty, interval handle, so every earlier interval
      stays installed next to the new one. */
  function StartTimerAsWritten(live: seq<ClockState>): (r: seq<ClockState>)
    ensures |r| == |live| + 1 && r[..|live|] == live && r[|live|] == Fresh()
    ensures RunningCount(r) == RunningCount(live) + 1
  {
    var r := live + [Fresh()];
    assert r[..|live|] == live;
    r
  }

  /** A second press leaves two intervals charging the clocks. */
  lemma RestartKeepsOldTimer()
    ensures RunningCount(StartTimerAsWritten(StartTimerAsWritten([]))) == 2
  {
    assert StartTimerAsWritten(StartTimerAsWritten([])) == [Fresh(), Fresh()];
    assert [Fresh(), Fresh()][..1] == [Fresh()];
  }

  /** Restarting replaces whatever intervals were installed. */
  function StartTimer(live: seq<ClockState>): (r: seq<ClockState>)
    ensures |r| == 1 && RunningCount(r) == 1 && r[0] == Fresh()
  {
    assert [Fresh()][..0] == [];
    [Fresh()]
  }

  /** However often "start" is pressed, exactly one interval runs, and it
      starts from ten minutes a side. */
  lemma {:induction false} RestartsLeaveOneTimer(presses: nat)
    ensures var live := StartTimes(presses); presses > 0 ==> RunningCount(live) == 1 && live == [Fresh()]
    decreases presses
  {
    if presses > 1 {
      RestartsLeaveOneTimer(presses - 1);
    }
  }

  /** The intervals installed after `presses` presses of "start". */
  function StartTimes(presses: nat): seq<ClockState> {
    if presses == 0 then [] else StartTimer(StartTimes(presses - 1))
  }
}

=== FILE: geometry.dfy ===
/** Board geometry of the square grid: which algebraic square each drawn
    cell carries, in the normal and the flipped orientation, which cells are
    light, where the coordinate labels go, and the order in which the pieces
    are placed on the board. */
module Geometry {
  import opened Wrappers
  import opened Strings

  /** File letters left to right and rank digits top to bottom, as White
      sees the board. */
  const Files: string := "abcdefgh"
  const Ranks: string := "87654321"

  function Reverse(s: string): (r: string)
    ensures |r| == |s|
    ensures forall i | 0 <= i < |s| :: r[i] == s[|s| - 1 - i]
  {
    seq(|s|, i requires 0 <= i < |s| => s[|s| - 1 - i])
  }

  /** The file letters along the columns; reversed when the board is flipped. */
  function FileLabels(flipped: bool): (fs: string)
    ensures |fs| == 8
  {
    if flipped then Reverse(Files) else Files
  }

  /** The rank digits along the rows; reversed when the board is flipped. */
  function RankLabels(flipped: bool): (rs: string)
    ensures |rs| == 8
  {
    if flipped then Reverse(Ranks) else Ranks
  }

  /** The letter of file `col` (0 for a) and the digit of rank `8 - row`. */
  lemma LabelChars(col: nat, row: nat)
    requires col < 8 && row < 8
    ensures Files[col] == (97 + col) as char
    ensures Ranks[row] == (56 - row) as char
  {
  }

  /** The name of the square drawn in row `row`, column `col` (both counted
      from the top left). */
  function SquareAt(flipped: bool, row: nat, col: nat): string
    requires row < 8 && col < 8
  {
    [FileLabels(flipped)[col], RankLabels(flipped)[row]]
  }

  /** In the normal orientation row 0 is rank 8 and column 0 is file a. */
  lemma SquareAtNormal(row: nat, col: nat)
    requires row < 8 && col < 8
    ensures SquareAt(false, row, col) == [(97 + col) as char, (56 - row) as char]
  {
    LabelChars(col, row);
  }

  /** Flipping turns the board half way round: every square moves to the
      cell diagonally opposite. */
  lemma SquareAtFlipped(row: nat, col: nat)
    requires row < 8 && col < 8
    ensures SquareAt(true, row, col) == SquareAt(false, 7 - row, 7 - col)
  {
  }

  /** The names of all 64 cells, row by row, as drawn. */
  function Layout(flipped: bool): (cells: seq<seq<string>>)
    ensures |cells| == 8 && forall row | 0 <= row < 8 :: |cells[row]| == 8
  {
    seq(8, row requires 0 <= row < 8 => seq(8, col requires 0 <= col < 8 => SquareAt(flipped, row, col)))
  }

  /** Turning the board round: each cell shows the square of the cell
      diagonally opposite in the other orientation. */
  lemma LayoutTurned(flipped: bool, other: bool)
    requires other != flipped
    ensures forall row, col | 0 <= row < 8 && 0 <= col < 8 ::
      Layout(other)[row][col] == Layout(flipped)[7 - row][7 - col]
  {
    forall row, col | 0 <= row < 8 && 0 <= col < 8
      ensures Layout(other)[row][col] == Layout(flipped)[7 - row][7 - col]
    {
      if flipped {
        SquareAtFlipped(7 - row, 7 - col);
      } else {
        SquareAtFlipped(row, col);
      }
    }
  }

  /** The flip button toggles the orientation, so pressing it twice restores
      the layout, and each press turns the layout half way round. */
  function Flip(flipped: bool): (f: bool)
    ensures f != flipped
    ensures forall row, col | 0 <= row < 8 && 0 <= col < 8 ::
      Layout(f)[row][col] == Layout(flipped)[7 - row][7 - col]
  {
    LayoutTurned(flipped, !flipped);
    !flipped
  }

  /** A well-formed square name: a file letter and a rank digit. */
  predicate IsSquareName(s: string) {
    |s| == 2 && 'a' <= s[0] <= 'h' && '1' <= s[1] <= '8'
  }

  /** The cell on which the square named `s` is drawn, if `s` names one. */
  function CellOf(flipped: bool, s: string): (cell: Option<(nat, nat)>)
    ensures cell.Some? <==> IsSquareName(s)
    ensures cell.Some? ==> cell.value.0 < 8 && cell.value.1 < 8
  {
    if !IsSquareName(s) then None
    else
      var row, col := '8' as int - s[1] as int, s[0] as int - 'a' as int;
      if flipped then Some((7 - row, 7 - col)) else Some((row, col))
  }

  /** The characters of an unflipped square name, as numbers. */
  lemma NormalSquareCodes(row: nat, col: nat)
    requires row < 8 && col < 8
    ensures var s := SquareAt(false, row, col);
            IsSquareName(s) && s[0] as int == 97 + col && s[1] as int == 56 - row
  {
    SquareAtNormal(row, col);
  }

  /** Every cell carries a square name, and finding that name's cell leads
      back to the same cell. */
  lemma CellOfSquareAt(flipped: bool, row: nat, col: nat)
    requires row < 8 && col < 8
    ensures IsSquareName(SquareAt(flipped, row, col))
    ensures CellOf(flipped, SquareAt(flipped, row, col)) == Some((row, col))
  {
    var s := SquareAt(flipped, row, col);
    var r: nat, c: nat := if flipped then 7 - row else row, if flipped then 7 - col else col;
    if flipped {
      SquareAtFlipped(row, col);
    }
    assert s == SquareAt(false, r, c);
    NormalSquareCodes(r, c);
    assert '8' as int - s[1] as int == r && s[0] as int - 'a' as int == c;
  }

  /** Every square name is drawn on exactly the cell `CellOf` finds. */
  lemma SquareAtOfCellOf(flipped: bool, s: string)
    requires IsSquareName(s)
    ensures var cell := CellOf(flipped, s).value; SquareAt(flipped, cell.0, cell.1) == s
  {
    var row, col := '8' as int - s[1] as int, s[0] as int - 'a' as int;
    SquareAtNormal(row, col);
    if flipped {
      SquareAtFlipped(7 - row, 7 - col);
    }
  }

  /** Distinct cells carry distinct squares. */
  lemma SquareAtInjective(flipped: bool, r1: nat, c1: nat, r2: nat, c2: nat)
    requires r1 < 8 && c1 < 8 && r2 < 8 && c2 < 8
    requires SquareAt(flipped, r1, c1) == SquareAt(flipped, r2, c2)
    ensures r1 == r2 && c1 == c2
  {
    CellOfSquareAt(flipped, r1, c1);
    CellOfSquareAt(flipped, r2, c2);
  }

  /** The drawn shade of a cell: light when row and column have equal parity. */
  predicate IsLightCell(row: nat, col: nat) {
    (row + col) % 2 == 0
  }

  /** The shade of a square on a real board: a file index (0 for a) and a
      rank number of equal parity make a light square, so a1 is dark. */
  predicate IsLightSquare(s: string)
    requires IsSquareName(s)
  {
    (s[0] as int - 'a' as int + s[1] as int - '0' as int) % 2 == 0
  }

  /** In the normal orientation a cell's shade is its square's shade. */
  lemma ShadeOfNormalSquare(row: nat, col: nat)
    requires row < 8 && col < 8
    ensures IsSquareName(SquareAt(false, row, col))
    ensures IsLightCell(row, col) <==> IsLightSquare(SquareAt(false, row, col))
  {
    NormalSquareCodes(row, col);
    var s := SquareAt(false, row, col);
    assert s[0] as int - 'a' as int + s[1] as int - '0' as int == (row + col) + 8 - 2 * row;
  }

  /** Diagonally opposite cells have the same shade. */
  lemma OppositeCellShade(row: nat, col: nat)
    requires row < 8 && col < 8
    ensures IsLightCell(7 - row, 7 - col) <==> IsLightCell(row, col)
  {
    var x := row + col;
    assert (7 - row) + (7 - col) == 14 - x;
    assert (14 - x) % 2 == x % 2 by {
      assert 14 - x == 2 * (7 - x) + x;
    }
  }

  /** The drawn shade matches the square's own shade in both orientations,
      so flipping never recolours a square. */
  lemma ShadeOfSquare(flipped: bool, row: nat, col: nat)
    requires row < 8 && col < 8
    ensures IsSquareName(SquareAt(flipped, row, col))
    ensures IsLightCell(row, col) <==> IsLightSquare(SquareAt(flipped, row, col))
  {
    if flipped {
      SquareAtFlipped(row, col);
      ShadeOfNormalSquare(7 - row, 7 - col);
      OppositeCellShade(row, col);
    } else {
      ShadeOfNormalSquare(row, col);
    }
  }

  /** The file letter shown in a cell: only along the bottom row. */
  function FileCoordinate(flipped: bool, row: nat, col: nat): Option<char>
    requires row < 8 && col < 8
  {
    if row == 7 then Some(FileLabels(flipped)[col]) else None
  }

  /** The rank digit shown in a cell: only along the leftmost column. */
  function RankCoordinate(flipped: bool, row: nat, col: nat): Option<char>
    requires row < 8 && col < 8
  {
    if col == 0 then Some(RankLabels(flipped)[row]) else None
  }

  /** The labels name the square they sit on: the bottom row shows each
      square's file, the left column each square's rank. */
  lemma CoordinatesNameSquare(flipped: bool, row: nat, col: nat)
    requires row < 8 && col < 8
    ensures FileCoordinate(flipped, row, col).Some? <==> row == 7
    ensures RankCoordinate(flipped, row, col).Some? <==> col == 0
    ensures row == 7 ==> FileCoordinate(flipped, row, col).value == SquareAt(flipped, row, col)[0]
    ensures col == 0 ==> RankCoordinate(flipped, row, col).value == SquareAt(flipped, row, col)[1]
  {
  }

  /** The square visited at step (`rank`, `file`) when the pieces are placed:
      the letter with code 97 + file and the number 8 - rank. */
  function PlacementSquare(rank: nat, file: nat): string
    requires rank < 8 && file < 8
  {
    [(97 + file) as char] + NatToString(8 - rank)
  }

  /** Pieces are placed by the board's own coordinates, independently of the
      orientation: step (`rank`, `file`) is the square of the unflipped
      cell in that row and column. */
  lemma PlacementIsNormalSquare(rank: nat, file: nat)
    requires rank < 8 && file < 8
    ensures PlacementSquare(rank, file) == SquareAt(false, rank, file)
  {
    SquareAtNormal(rank, file);
    assert NatToString(8 - rank) == [DigitChar(8 - rank)];
  }

  /** The 64 squares in the order the pieces are placed. */
  function PlacementOrder(): (squares: seq<string>)
    ensures |squares| == 64
  {
    seq(64, k requires 0 <= k < 64 => PlacementSquare(k / 8, k % 8))
  }

  /** Step `k` of the placement is the unflipped square of cell
      (`k / 8`, `k % 8`). */
  lemma PlacementStep(k: nat)
    requires k < 64
    ensures PlacementOrder()[k] == SquareAt(false, k / 8, k % 8)
    ensures IsSquareName(PlacementOrder()[k])
  {
    PlacementIsNormalSquare(k / 8, k % 8);
    CellOfSquareAt(false, k / 8, k % 8);
  }

  /** No square is visited twice. */
  lemma PlacementDistinct(i: nat, j: nat)
    requires i < j < 64
    ensures PlacementOrder()[i] != PlacementOrder()[j]
  {
    PlacementStep(i);
    PlacementStep(j);
    assert i == 8 * (i / 8) + i % 8 && j == 8 * (j / 8) + j % 8;
    assert (i / 8, i % 8) != (j / 8, j % 8);
    CellOfSquareAt(false, i / 8, i % 8);
    CellOfSquareAt(false, j / 8, j % 8);
  }

  /** Every square name is visited. */
  lemma PlacementCovers(s: string)
    requires IsSquareName(s)
    ensures s in PlacementOrder()
  {
    var cell := CellOf(false, s).value;
    SquareAtOfCellOf(false, s);
    var k := cell.0 * 8 + cell.1;
    assert k / 8 == cell.0 && k % 8 == cell.1;
    PlacementStep(k);
  }

  /** The placement visits every square exactly once. */
  lemma PlacementVisitsEverySquareOnce()
    ensures forall i, j | 0 <= i < j < 64 :: PlacementOrder()[i] != PlacementOrder()[j]
    ensures forall s :: s in PlacementOrder() <==> IsSquareName(s)
  {
    forall i, j | 0 <= i < j < 64
      ensures PlacementOrder()[i] != PlacementOrder()[j]
    {
      PlacementDistinct(i, j);
    }
    forall s | s in PlacementOrder()
      ensures IsSquareName(s)
    {
      var k :| 0 <= k < 64 && PlacementOrder()[k] == s;
      PlacementStep(k);
    }
    forall s | IsSquareName(s)
      ensures s in PlacementOrder()
    {
      PlacementCovers(s);
    }
  }
}

=== FILE: selection.dfy ===
/** Square selection and move entry by clicking, in the two board
    controllers: the plain board (`ChessBoard`) and the engine game
    (`ChessGame`).  The rules library is not modelled: what the controllers
    ask of it about the current position is passed in as a `Rules` record. */
module Selection {
  import opened Wrappers
  import opened Strings
  import opened Sides
  import GameStatus
  import Uci

  /** A piece as the rules library reports it: colour `'w'` or `'b'` and
      its kind letter. */
  datatype Piece = Piece(color: char, kind: char)

  /** A legal move in the rules library's verbose form. */
  datatype LegalMove = LegalMove(from: string, to: string, flags: string, san: string)

  /** The rules library's answers about the current position: the piece on
      a square, the side to move, the legal moves from a square, and whether
      it accepts a move when asked to play it. */
  datatype Rules = Rules(
    pieceAt: string -> Option<Piece>,
    turn: Color,
    movesFrom: string -> seq<LegalMove>,
    accepts: LegalMove -> bool)

  /** The selected square and the moves highlighted from it. */
  datatype UiState = UiState(selected: Option<string>, possible: seq<LegalMove>)

  const Cleared: UiState := UiState(None, [])

  predicate Matches(m: LegalMove, from: string, to: string) {
    m.from == from && m.to == to
  }

  /** The index of the first legal move from `from` to `to`. */
  function FindMoveIndex(moves: seq<LegalMove>, from: string, to: string): (r: Option<nat>)
    ensures r.Some? ==> r.value < |moves| && Matches(moves[r.value], from, to)
    ensures r.Some? ==> forall j | 0 <= j < r.value :: !Matches(moves[j], from, to)
    ensures r.None? <==> forall j | 0 <= j < |moves| :: !Matches(moves[j], from, to)
  {
    var p: nat -> bool := (k: nat) => k < |moves| && Matches(moves[k], from, to);
    var r := FirstIndex(0, |moves|, p);
    assert forall j: nat | j < |moves| :: p(j) == Matches(moves[j], from, to);
    r
  }

  /** The first listed move from `from` to `to`, as a search of the legal
      moves from `from` finds it. */
  function FindMove(moves: seq<LegalMove>, from: string, to: string): (r: Option<LegalMove>)
    ensures r.Some? ==> r.value in moves && Matches(r.value, from, to)
    ensures r.Some? ==> exists k | 0 <= k < |moves| ::
      moves[k] == r.value && forall j | 0 <= j < k :: !Matches(moves[j], from, to)
    ensures r.None? <==> forall m | m in moves :: !Matches(m, from, to)
  {
    match FindMoveIndex(moves, from, to)
    case None => None
    case Some(k) => Some(moves[k])
  }

  /** The colour letter the rules library gives a side's pieces. */
  function Letter(c: Color): char {
    if c == White then 'w' else 'b'
  }

  /** A piece of the side to move, on the plain board.  A colour other than
      `'w'` or `'b'` belongs to nobody. */
  predicate IsPlayerPiece(turn: Color, p: Piece) {
    var whiteTurn := turn == White;
    (p.color == 'w' && whiteTurn) || (p.color == 'b' && !whiteTurn)
  }

  /** A piece is the player's exactly when it has the colour of the side to
      move. */
  lemma PlayerPieceIsTurnColour(turn: Color, p: Piece)
    ensures IsPlayerPiece(turn, p) <==> p.color == Letter(turn)
  {
  }

  /** A piece of the human player's colour, in the engine game: the same
      test as the plain board's, against the player's side instead of the
      side to move. */
  function IsOwnPiece(playerWhite: bool, p: Piece): (own: bool)
    ensures own <==> IsPlayerPiece(if playerWhite then White else Black, p)
    ensures own <==> p.color == (if playerWhite then 'w' else 'b')
  {
    (p.color == 'w' && playerWhite) || (p.color == 'b' && !playerWhite)
  }

  /** What a click did: the new selection and the move played, if one was. */
  datatype ClickResult = ClickResult(ui: UiState, played: Option<LegalMove>)

  /** Selecting `square`: highlight every legal move from it. */
  function Select(rules: Rules, square: string): (ui: UiState)
    ensures ui.selected == Some(square)
  {
    UiState(Some(square), rules.movesFrom(square))
  }

  /** The move a click attempts: with another square selected, the first
      legal move from there to the clicked square, if any. */
  function Attempt(rules: Rules, ui: UiState, square: string): Option<LegalMove> {
    if ui.selected.Some? && ui.selected.value != square
    then FindMove(rules.movesFrom(ui.selected.value), ui.selected.value, square)
    else None
  }

  /** Playing an attempted move: the rules library accepting it clears the
      selection, refusing it ends the click with nothing changed. */
  function Play(rules: Rules, ui: UiState, m: LegalMove): ClickResult {
    if rules.accepts(m) then ClickResult(Cleared, Some(m)) else ClickResult(ui, None)
  }

  /** A click on the plain board.  With another square selected, the click
      is a move attempt and nothing else: a legal, accepted move clears the
      selection, anything else leaves it as it was.  Otherwise a click on a
      piece of the side to move selects it and any other click clears. */
  function Click(rules: Rules, ui: UiState, square: string): (r: ClickResult)
    ensures Attempt(rules, ui, square).Some? ==> r == Play(rules, ui, Attempt(rules, ui, square).value)
    ensures r.played.Some? ==> r.ui == Cleared && ui.selected.Some?
    ensures r.played.Some? ==> && r.played.value in rules.movesFrom(ui.selected.value)
                               && Matches(r.played.value, ui.selected.value, square)
                               && rules.accepts(r.played.value)
    ensures ui.selected.Some? && ui.selected.value != square && r.played.None? ==> r.ui == ui
    ensures ui.selected.None? || ui.selected.value == square ==>
      && r.played.None?
      && (r.ui.selected.Some? <==> rules.pieceAt(square).Some? && IsPlayerPiece(rules.turn, rules.pieceAt(square).value))
      && (r.ui.selected.Some? ==> r.ui == Select(rules, square))
      && (r.ui.selected.None? ==> r.ui == Cleared)
  {
    var piece := rules.pieceAt(square);
    if ui.selected.Some? && ui.selected.value != square then
      match Attempt(rules, ui, square)
      case Some(m) => Play(rules, ui, m)
      case None => ClickResult(ui, None)
    else if piece.Some? && IsPlayerPiece(rules.turn, piece.value) then
      ClickResult(Select(rules, square), None)
    else
      ClickResult(Cleared, None)
  }

  /** The selection agrees with the position: nothing selected and nothing
      highlighted, or a square with a piece of the side to move whose legal
      moves are the ones highlighted. */
  predicate Consistent(rules: Rules, ui: UiState) {
    match ui.selected
    case None => ui.possible == []
    case Some(s) =>
      && ui.possible == rules.movesFrom(s)
      && rules.pieceAt(s).Some?
      && IsPlayerPiece(rules.turn, rules.pieceAt(s).value)
  }

  /** A click keeps the selection consistent with the position it was made
      in; after a move the selection is cleared, which is consistent with
      any position. */
  lemma ClickKeepsConsistent(rules: Rules, ui: UiState, square: string)
    requires Consistent(rules, ui)
    ensures Consistent(rules, Click(rules, ui, square).ui)
    ensures Click(rules, ui, square).played.Some? ==> Click(rules, ui, square).ui == Cleared
  {
  }

  /** A click in the engine game.  Nothing happens while the game is over.
      With another square selected, a legal move is played (or, if the
      rules library refuses it, the click ends there); a click that is not
      a legal move falls through to selection, which picks the human
      player's pieces, whoever is to move. */
  function GameClick(active: bool, playerWhite: bool, rules: Rules, ui: UiState, square: string): (r: ClickResult)
    ensures !active ==> r == ClickResult(ui, None)
    ensures active && Attempt(rules, ui, square).Some? ==> r == Play(rules, ui, Attempt(rules, ui, square).value)
    ensures active && Attempt(rules, ui, square).None? ==>
      && r.played.None?
      && (r.ui.selected.Some? <==> rules.pieceAt(square).Some? && IsOwnPiece(playerWhite, rules.pieceAt(square).value))
      && (r.ui.selected.Some? ==> r.ui == Select(rules, square))
      && (r.ui.selected.None? ==> r.ui == Cleared)
    ensures r.played.Some? ==> && active && ui.selected.Some? && r.ui == Cleared
                               && r.played.value in rules.movesFrom(ui.selected.value)
                               && Matches(r.played.value, ui.selected.value, square)
                               && rules.accepts(r.played.value)
  {
    if !active then ClickResult(ui, None)
    else
      var piece := rules.pieceAt(square);
      match Attempt(rules, ui, square)
      case Some(m) => Play(rules, ui, m)
      case None =>
        if piece.Some? && IsOwnPiece(playerWhite, piece.value) then ClickResult(Select(rules, square), None)
        else ClickResult(Cleared, None)
  }

  /** The two controllers differ on a click at another of the player's own
      pieces while a piece is selected: the plain board keeps the old
      selection, the engine game switches to the clicked piece. */
  lemma ReselectDiffers(rules: Rules, ui: UiState, square: string)
    requires rules.turn == White
    requires ui.selected.Some? && ui.selected.value != square
    requires FindMove(rules.movesFrom(ui.selected.value), ui.selected.value, square).None?
    requires rules.pieceAt(square).Some? && rules.pieceAt(square).value.color == 'w'
    ensures Click(rules, ui, square) == ClickResult(ui, None)
    ensures GameClick(true, true, rules, ui, square) == ClickResult(Select(rules, square), None)
  {
  }

  /** What follows a move the human player made in the engine game: the
      status is refreshed, and while the game goes on the position is
      evaluated and, if the engine is now to move, its move is requested. */
  datatype FollowUp = FollowUp(status: GameStatus.Status, active: bool, requests: seq<Uci.Request>)

  function AfterPlayerMove(report: GameStatus.Report, active: bool, playerWhite: bool, fen: string, level: int): (f: FollowUp)
    ensures (f.status, f.active) == GameStatus.Update(report, active)
    ensures !f.active ==> f.requests == []
    ensures f.active ==> |f.requests| >= 1 && f.requests[0] == Uci.Evaluate(fen)
    ensures Uci.AiTurn(true, fen, level) in f.requests
        <==> f.active && (report.turn == White) != playerWhite
    ensures f.active ==> f.requests[1..] == if (report.turn == White) != playerWhite then [Uci.AiTurn(true, fen, level)] else []
  {
    var (status, nowActive) := GameStatus.Update(report, active);
    var engineToMove := (report.turn == White) != playerWhite;
    var requests :=
      if !nowActive then []
      else [Uci.Evaluate(fen)] + if engineToMove then [Uci.AiTurn(true, fen, level)] else [];
    FollowUp(status, nowActive, requests)
  }

  /** After checkmate or a draw the engine is asked for nothing more. */
  lemma NoRequestsAfterGameEnds(report: GameStatus.Report, active: bool, playerWhite: bool, fen: string, level: int)
    requires GameStatus.Terminal(GameStatus.Update(report, active).0)
    ensures AfterPlayerMove(report, active, playerWhite, fen, level).requests == []
  {
  }

  /** What follows a move the engine made: the status is refreshed and the
      position evaluated, whether or not the game is over. */
  function AfterEngineMove(report: GameStatus.Report, active: bool, fen: string): (f: FollowUp)
    ensures (f.status, f.active) == GameStatus.Update(report, active)
    ensures f.requests == [Uci.Evaluate(fen)]
  {
    var (status, nowActive) := GameStatus.Update(report, active);
    FollowUp(status, nowActive, [Uci.Evaluate(fen)])
  }

  /** The two follow-ups differ on a mating move: the engine's still asks
      for an evaluation of the final position, the player's asks nothing. */
  lemma EvaluationAfterEngineMate(report: GameStatus.Report, active: bool, playerWhite: bool, fen: string, level: int)
    requires report.checkmate
    ensures AfterEngineMove(report, active, fen).requests == [Uci.Evaluate(fen)]
    ensures AfterPlayerMove(report, active, playerWhite, fen, level).requests == []
    ensures Uci.Emit(AfterEngineMove(report, active, fen).requests[0]) == [Uci.PositionFen(fen), Uci.EvalRequest]
  {
  }

  /** The new-game button: the selection is cleared, the status is
      refreshed on a game made active again, and when the human plays Black
      the engine's first move is requested (it runs only if the game is
      still active when it fires).  No evaluation is requested: the panel is
      reset to "equal" directly. */
  function NewGame(report: GameStatus.Report, playerWhite: bool, fen: string, level: int): (r: (UiState, FollowUp))
    ensures r.0 == Cleared
    ensures (r.1.status, r.1.active) == GameStatus.Update(report, true)
    ensures playerWhite ==> r.1.requests == []
    ensures !playerWhite ==> r.1.requests == [Uci.AiTurn(r.1.active, fen, level)]
  {
    var (status, nowActive) := GameStatus.Update(report, true);
    (Cleared, FollowUp(status, nowActive, if playerWhite then [] else [Uci.AiTurn(nowActive, fen, level)]))
  }

  /** From a quiet starting position, a human playing Black makes the
      engine search the position for the level's think time, and a human
      playing White sends it nothing. */
  lemma NewGameOpening(report: GameStatus.Report, playerWhite: bool, fen: string, level: int)
    requires !report.checkmate && !report.draw && !report.check
    ensures var f := NewGame(report, playerWhite, fen, level).1;
      && f.active
      && Uci.EmitAll(f.requests)
         == if playerWhite then [] else [Uci.PositionFen(fen), Uci.GoMovetime(Uci.MoveTimeMs(level))]
  {
    var f := NewGame(report, playerWhite, fen, level).1;
    if !playerWhite {
      assert f.requests[..0] == [];
    }
  }

  /** The take-back button, on the list of moves played.  Two or more
      moves: the last two are undone and the position is refreshed and
      evaluated.  One move: it is undone and refreshed, with no evaluation.
      No move: nothing happens.  The `report` and `fen` are the rules
      library's answers about the position after the take-back. */
  function Undo(history: seq<string>, report: GameStatus.Report, active: bool, fen: string): (r: (seq<string>, Option<FollowUp>))
    ensures |history| == 0 ==> r == (history, None)
    ensures |history| >= 1 ==> r.1.Some? && (r.1.value.status, r.1.value.active) == GameStatus.Update(report, active)
    ensures |history| >= 2 ==> r.0 == history[..|history| - 2] && r.1.value.requests == [Uci.Evaluate(fen)]
    ensures |history| == 1 ==> r.0 == [] && r.1.value.requests == []
  {
    var (status, nowActive) := GameStatus.Update(report, active);
    if |history| >= 2 then (history[..|history| - 2], Some(FollowUp(status, nowActive, [Uci.Evaluate(fen)])))
    else if |history| == 1 then ([], Some(FollowUp(status, nowActive, [])))
    else (history, None)
  }

  /** Taking back after the player's move and the engine's reply restores
      the moves before them, so the same side is to move again. */
  lemma UndoTakesBackExchange(history: seq<string>, mine: string, reply: string,
                              report: GameStatus.Report, active: bool, fen: string)
    ensures Undo(history + [mine, reply], report, active, fen).0 == history
    ensures |Undo(history + [mine, reply], report, active, fen).0| % 2 == |history + [mine, reply]| % 2
  {
    assert (history + [mine, reply])[..|history|] == history;
  }

  /** The take-back has no game-over guard: undoing into a quiet position
      makes a finished game active again. */
  lemma UndoRevivesFinishedGame(history: seq<string>, report: GameStatus.Report, fen: string)
    requires |history| >= 1
    requires !report.checkmate && !report.draw && !report.check
    ensures Undo(history, report, false, fen).1.value.active
  {
  }
}

=== FILE: sides.dfy ===
/** The two sides.  The rules library reports the side to move as `'w'` or
    `'b'`, and the code only ever compares that answer with `'w'`; the
    library's answers (`Selection.Rules`, `GameStatus.Report`) therefore
    carry it as a `Color` directly. */
module Sides {

  datatype Color = White | Black

  function Opponent(c: Color): (o: Color)
    ensures o != c
  {
    match c
    case White => Black
    case Black => White
  }
}

=== FILE: status.dfy ===
/** The status banner and the move-history panel: how the rules library's
    verdict on the position becomes a status and the game's active flag, and
    how the list of moves played is laid out in numbered white/black rows. */
module GameStatus {
  import opened Wrappers
  import opened Sides

  /** What the rules library answers about the current position. */
  datatype Report = Report(
    checkmate: bool,
    draw: bool,
    check: bool,
    stalemate: bool,
    threefold: bool,
    insufficient: bool,
    turn: Color)

  datatype DrawReason = Stalemate | Threefold | InsufficientMaterial | OtherDraw

  datatype Status =
    | Checkmate(winner: Color)
    | Drawn(reason: DrawReason)
    | InCheck(toMove: Color)
    | ToMove(toMove: Color)

  /** A status after which no further move is accepted. */
  predicate Terminal(s: Status) {
    s.Checkmate? || s.Drawn?
  }

  /** The first applicable of stalemate, threefold repetition and
      insufficient material names the draw. */
  function DrawReasonOf(r: Report): (d: DrawReason)
    ensures d == Stalemate <==> r.stalemate
    ensures d == Threefold <==> !r.stalemate && r.threefold
    ensures d == InsufficientMaterial <==> !r.stalemate && !r.threefold && r.insufficient
    ensures d == OtherDraw <==> !r.stalemate && !r.threefold && !r.insufficient
  {
    if r.stalemate then Stalemate
    else if r.threefold then Threefold
    else if r.insufficient then InsufficientMaterial
    else OtherDraw
  }

  /** The status shown and the active flag afterwards.  Checkmate takes
      precedence over a draw, a draw over check; check leaves the active flag
      as it was, a quiet position sets it. */
  function Update(r: Report, active: bool): (res: (Status, bool))
    ensures res.0.Checkmate? <==> r.checkmate
    ensures res.0.Checkmate? ==> res.0.winner == Opponent(r.turn)
    ensures res.0.Drawn? <==> !r.checkmate && r.draw
    ensures res.0.Drawn? ==> res.0.reason == DrawReasonOf(r)
    ensures res.0.InCheck? <==> !r.checkmate && !r.draw && r.check
    ensures res.0.InCheck? || res.0.ToMove? ==> res.0.toMove == r.turn
    ensures Terminal(res.0) ==> !res.1
    ensures res.0.ToMove? ==> res.1
    ensures res.0.InCheck? ==> res.1 == active
  {
    if r.checkmate then (Checkmate(Opponent(r.turn)), false)
    else if r.draw then (Drawn(DrawReasonOf(r)), false)
    else if r.check then (InCheck(r.turn), active)
    else (ToMove(r.turn), true)
  }

  /** Refreshing the banner twice on the same position changes nothing the
      second time. */
  lemma UpdateIdempotent(r: Report, active: bool)
    ensures Update(r, Update(r, active).1) == Update(r, active)
  {
  }

  /** An active game stays active exactly when the position is not over; an
      inactive one is revived only by a quiet position. */
  lemma ActiveAfterUpdate(r: Report, active: bool)
    ensures active ==> (Update(r, active).1 <==> !Terminal(Update(r, active).0))
    ensures !active ==> (Update(r, active).1 <==> Update(r, active).0.ToMove?)
  {
  }

  /** One row of the move-history panel: the move number, White's move and
      Black's reply, or a disabled placeholder when Black has not replied. */
  datatype HistoryRow = HistoryRow(number: nat, white: string, black: Option<string>)

  /** The moves a row shows, in order. */
  function RowMoves(row: HistoryRow): seq<string> {
    match row.black
    case None => [row.white]
    case Some(b) => [row.white, b]
  }

  /** The moves of a panel, read row after row. */
  function Flatten(rows: seq<HistoryRow>): seq<string> {
    if |rows| == 0 then []
    else Flatten(rows[..|rows| - 1]) + RowMoves(rows[|rows| - 1])
  }

  /** Appending a row appends its moves. */
  lemma FlattenAppend(rows: seq<HistoryRow>, row: HistoryRow)
    ensures Flatten(rows + [row]) == Flatten(rows) + RowMoves(row)
  {
    assert (rows + [row])[..|rows|] == rows;
  }

  /** The row for moves `i` and `i + 1`, and the moves it shows. */
  lemma RowOfPair(moves: seq<string>, i: nat)
    requires i < |moves|
    ensures var black := if i + 1 < |moves| then Some(moves[i + 1]) else None;
            var shown := moves[..i] + RowMoves(HistoryRow(i / 2 + 1, moves[i], black));
            (i + 1 < |moves| ==> shown == moves[..i + 2])
            && (i + 1 >= |moves| ==> shown == moves)
  {
    if i + 1 < |moves| {
      assert moves[..i + 2] == moves[..i] + [moves[i], moves[i + 1]];
    } else {
      assert moves == moves[..i] + [moves[i]];
    }
  }

  /** Rows numbered from one, in order. */
  predicate Numbered(rows: seq<HistoryRow>) {
    forall k | 0 <= k < |rows| :: rows[k].number == k + 1
  }

  /** Every row but the last shows Black's reply. */
  predicate RepliedBeforeLast(rows: seq<HistoryRow>) {
    forall k | 0 <= k < |rows| - 1 :: rows[k].black.Some?
  }

  /** A row numbered next, after a last row with a reply, keeps both. */
  lemma AppendRow(rows: seq<HistoryRow>, row: HistoryRow)
    requires Numbered(rows) && RepliedBeforeLast(rows)
    requires row.number == |rows| + 1
    requires |rows| > 0 ==> rows[|rows| - 1].black.Some?
    ensures Numbered(rows + [row]) && RepliedBeforeLast(rows + [row])
  {
  }

  /** The row started by move `i`: White's move `i` and, if it was played,
      Black's reply `i + 1`. */
  function RowAt(moves: seq<string>, i: nat): HistoryRow
    requires i < |moves|
  {
    HistoryRow(i / 2 + 1, moves[i], if i + 1 < |moves| then Some(moves[i + 1]) else None)
  }

  /** The panel after the rows for the first `i` moves have been built. */
  predicate Built(moves: seq<string>, rows: seq<HistoryRow>, i: nat) {
    && i % 2 == 0 && i <= |moves| + 1
    && |rows| == i / 2
    && (i <= |moves| ==> Flatten(rows) == moves[..i])
    && (i > |moves| ==> Flatten(rows) == moves && |moves| % 2 == 1)
    && Numbered(rows) && RepliedBeforeLast(rows)
    && (|rows| > 0 ==> (rows[|rows| - 1].black.None? <==> i > |moves|))
  }

  lemma BuiltStep(moves: seq<string>, rows: seq<HistoryRow>, i: nat)
    requires Built(moves, rows, i) && i < |moves|
    ensures Built(moves, rows + [RowAt(moves, i)], i + 2)
  {
    var row := RowAt(moves, i);
    FlattenAppend(rows, row);
    RowOfPair(moves, i);
    AppendRow(rows, row);
  }

  /** Rebuilds the panel from the moves played, two at a time: reading the
      rows back gives the moves, every row but the last has a reply, and the
      rows are numbered from one. */
  method History(moves: seq<string>) returns (rows: seq<HistoryRow>)
    ensures Flatten(rows) == moves
    ensures |rows| == (|moves| + 1) / 2
    ensures forall k | 0 <= k < |rows| :: rows[k].number == k + 1
    ensures forall k | 0 <= k < |rows| - 1 :: rows[k].black.Some?
    ensures |rows| > 0 ==> (rows[|rows| - 1].black.None? <==> |moves| % 2 == 1)
  {
    rows := [];
    var i := 0;
    while i < |moves|
      invariant Built(moves, rows, i)
    {
      BuiltStep(moves, rows, i);
      rows := rows + [RowAt(moves, i)];
      i := i + 2;
    }
    if i == |moves| {
      assert moves[..i] == moves;
    }
  }
}

=== FILE: strings.dfy ===
/** The JavaScript string operations the application relies on: `startsWith`,
    `includes`/`indexOf`, `split(' ')`, `substring`, `padStart`, decimal
    rendering of a number and `parseInt` of a run of digits.  Strings are
    sequences of characters; no Unicode normalisation or case folding. */
module Strings {
  import opened Wrappers

  predicate IsDigit(c: char) {
    '0' <= c <= '9'
  }

  predicate IsDigits(s: string) {
    forall i | 0 <= i < |s| :: IsDigit(s[i])
  }

  /** The characters of the regular-expression class `\s` (white space and
      line terminators as ECMAScript defines them). */
  predicate IsWhitespace(c: char) {
    || c == ' ' || c == '\t' || c == '\n' || c == '\r'
    || c == '\U{B}' || c == '\U{C}' || c == '\U{A0}' || c == '\U{1680}'
    || ('\U{2000}' <= c <= '\U{200A}')
    || c == '\U{2028}' || c == '\U{2029}' || c == '\U{202F}' || c == '\U{205F}'
    || c == '\U{3000}' || c == '\U{FEFF}'
  }

  /** `s.startsWith(p)` */
  predicate StartsWith(s: string, p: string) {
    |p| <= |s| && s[..|p|] == p
  }

  /** `t` occurs in `s` starting at index `i`. */
  predicate OccursAt(s: string, t: string, i: int) {
    0 <= i && i + |t| <= |s| && s[i..i + |t|] == t
  }

  /** The least index in `[k, n)` at which `p` holds, if any. */
  function FirstIndex(k: nat, n: nat, p: nat -> bool): (r: Option<nat>)
    ensures r.Some? ==> k <= r.value < n && p(r.value)
    ensures r.Some? ==> forall j | k <= j < r.value :: !p(j)
    ensures r.None? ==> forall j | k <= j < n :: !p(j)
    decreases n - k
  {
    if k >= n then None
    else if p(k) then Some(k)
    else FirstIndex(k + 1, n, p)
  }

  /** `s.indexOf(t)`, with "not found" as `None`: the first occurrence. */
  function IndexOf(s: string, t: string): (r: Option<nat>)
    ensures r.Some? ==> OccursAt(s, t, r.value)
    ensures r.Some? ==> forall j | 0 <= j < r.value :: !OccursAt(s, t, j)
    ensures r.None? <==> forall j :: !OccursAt(s, t, j)
  {
    var p: nat -> bool := i => OccursAt(s, t, i);
    var r := FirstIndex(0, |s| + 1, p);
    assert forall j: nat :: p(j) == OccursAt(s, t, j);
    r
  }

  /** `s.includes(t)` */
  predicate Contains(s: string, t: string) {
    IndexOf(s, t).Some?
  }

  lemma ContainsAt(s: string, t: string, i: int)
    requires OccursAt(s, t, i)
    ensures Contains(s, t)
  {
  }

  /** An occurrence, character by character. */
  lemma OccursAtChars(s: string, t: string, i: nat)
    requires i + |t| <= |s|
    requires forall d | 0 <= d < |t| :: s[i + d] == t[d]
    ensures OccursAt(s, t, i)
  {
    assert s[i..i + |t|] == t;
  }

  /** A key written after a prefix occurs right there, and what follows it
      is the rest. */
  lemma OccursAfter(prefix: string, key: string, rest: string)
    ensures var s := prefix + key + rest;
            OccursAt(s, key, |prefix|) && s[|prefix| + |key|..] == rest
  {
    var s := prefix + key + rest;
    assert s[|prefix|..|prefix| + |key|] == key;
    assert s[|prefix| + |key|..] == rest;
  }

  /** One mismatching character rules an occurrence out. */
  lemma MismatchAt(s: string, t: string, i: int, d: nat)
    requires 0 <= i && d < |t| && i + d < |s| && s[i + d] != t[d]
    ensures !OccursAt(s, t, i)
  {
    if i + |t| <= |s| {
      assert s[i..i + |t|][d] == s[i + d];
    }
  }

  /** An occurrence that would end inside `u` is one in `u` itself, so
      extending `u` adds no earlier occurrence. */
  lemma NoOccurrenceExtended(u: string, v: string, t: string, j: int)
    requires 0 <= j && j + |t| <= |u| && !OccursAt(u, t, j)
    ensures !OccursAt(u + v, t, j)
  {
    assert (u + v)[j..j + |t|] == u[j..j + |t|];
  }

  /** No occurrence starts before `k` where each position differs from the
      pattern in its first or second character. */
  lemma NoOccurrenceBefore(s: string, t: string, k: nat)
    requires 2 <= |t| && k < |s|
    requires forall j | 0 <= j < k :: s[j] != t[0] || s[j + 1] != t[1]
    ensures forall j | 0 <= j < k :: !OccursAt(s, t, j)
  {
    forall j | 0 <= j < k
      ensures !OccursAt(s, t, j)
    {
      if s[j] != t[0] {
        MismatchAt(s, t, j, 0);
      } else {
        MismatchAt(s, t, j, 1);
      }
    }
  }

  /** A one-character pattern occurs exactly where that character is. */
  lemma OccursAtChar(s: string, c: char, i: int)
    ensures OccursAt(s, [c], i) <==> 0 <= i < |s| && s[i] == c
  {
    if 0 <= i < |s| {
      assert s[i..i + 1] == [s[i]];
    }
  }

  /** `parts.join(sep)` */
  function Join(parts: seq<string>, sep: char): string {
    if |parts| == 0 then ""
    else if |parts| == 1 then parts[0]
    else parts[0] + [sep] + Join(parts[1..], sep)
  }

  /** `s.split(sep)` for a one-character separator: the pieces between
      consecutive separators, empty pieces included. */
  function Split(s: string, sep: char): (parts: seq<string>)
    ensures |parts| >= 1
    ensures forall i | 0 <= i < |parts| :: sep !in parts[i]
    decreases |s|
  {
    match IndexOf(s, [sep])
    case None =>
      assert sep !in s by {
        forall i | 0 <= i < |s|
          ensures s[i] != sep
        {
          OccursAtChar(s, sep, i);
        }
      }
      [s]
    case Some(k) =>
      assert sep !in s[..k] by {
        forall i | 0 <= i < k
          ensures s[i] != sep
        {
          OccursAtChar(s, sep, i);
        }
      }
      [s[..k]] + Split(s[k + 1..], sep)
  }

  /** Joining the pieces with the separator gives the string back. */
  lemma {:induction false} JoinOfSplit(s: string, sep: char)
    ensures Join(Split(s, sep), sep) == s
    decreases |s|
  {
    match IndexOf(s, [sep])
    case None =>
    case Some(k) =>
      OccursAtChar(s, sep, k);
      var rest := Split(s[k + 1..], sep);
      var parts := [s[..k]] + rest;
      assert Split(s, sep) == parts;
      assert parts[1..] == rest;
      JoinOfSplit(s[k + 1..], sep);
      assert Join(parts, sep) == s[..k] + [sep] + s[k + 1..];
      assert s == s[..k] + [sep] + s[k + 1..];
  }

  /** The first separator of `a + [sep] + b` is the one after `a`. */
  lemma SplitAfterFirst(a: string, sep: char, b: string)
    requires sep !in a
    ensures Split(a + [sep] + b, sep) == [a] + Split(b, sep)
  {
    var s := a + [sep] + b;
    OccursAtChar(s, sep, |a|);
    forall j | 0 <= j < |a|
      ensures !OccursAt(s, [sep], j)
    {
      OccursAtChar(s, sep, j);
    }
    assert IndexOf(s, [sep]) == Some(|a|);
    assert s[..|a|] == a;
    assert s[|a| + 1..] == b;
  }

  /** Two separator-free pieces joined by the separator split back into
      those two pieces. */
  lemma SplitPair(a: string, sep: char, b: string)
    requires sep !in a && sep !in b
    ensures Split(a + [sep] + b, sep) == [a, b]
  {
    SplitAfterFirst(a, sep, b);
    SplitNoSeparator(b, sep);
  }

  /** A digit string contains no other character. */
  lemma DigitsExclude(s: string, c: char)
    requires IsDigits(s) && !IsDigit(c)
    ensures c !in s
  {
    forall i | 0 <= i < |s|
      ensures s[i] != c
    {
      assert IsDigit(s[i]);
    }
  }

  /** A string without the separator is one piece. */
  lemma SplitNoSeparator(s: string, sep: char)
    requires sep !in s
    ensures Split(s, sep) == [s]
  {
    if IndexOf(s, [sep]).Some? {
      OccursAtChar(s, sep, IndexOf(s, [sep]).value);
    }
  }

  /** Splitting is the inverse of joining separator-free pieces, so the
      pieces `Split` returns are the only ones that join back to `s`. */
  lemma {:induction false} SplitOfJoin(parts: seq<string>, sep: char)
    requires |parts| >= 1
    requires forall i | 0 <= i < |parts| :: sep !in parts[i]
    ensures Split(Join(parts, sep), sep) == parts
    decreases |parts|
  {
    if |parts| == 1 {
      SplitNoSeparator(parts[0], sep);
    } else {
      SplitAfterFirst(parts[0], sep, Join(parts[1..], sep));
      SplitOfJoin(parts[1..], sep);
      assert parts == [parts[0]] + parts[1..];
    }
  }

  function Min(a: int, b: int): int {
    if a <= b then a else b
  }

  function Max(a: int, b: int): int {
    if a >= b then a else b
  }

  /** `s.substring(a, b)` for `a <= b`: both ends are clamped to the length. */
  function Substring(s: string, a: nat, b: nat): string
    requires a <= b
  {
    s[Min(a, |s|)..Min(b, |s|)]
  }

  /** The longest prefix of `s` whose characters all satisfy `p`. */
  function TakeWhile(s: string, p: char -> bool): (r: string)
    ensures StartsWith(s, r)
    ensures forall i | 0 <= i < |r| :: p(r[i])
    ensures |r| < |s| ==> !p(s[|r|])
  {
    if |s| == 0 || !p(s[0]) then ""
    else [s[0]] + TakeWhile(s[1..], p)
  }

  /** `TakeWhile` stops exactly at the first character that fails `p`. */
  lemma {:induction false} TakeWhileConcat(a: string, b: string, p: char -> bool)
    requires forall i | 0 <= i < |a| :: p(a[i])
    requires |b| == 0 || !p(b[0])
    ensures TakeWhile(a + b, p) == a
    decreases |a|
  {
    if |a| > 0 {
      assert (a + b)[1..] == a[1..] + b;
      TakeWhileConcat(a[1..], b, p);
      assert a == [a[0]] + a[1..];
    } else {
      assert a + b == b;
    }
  }

  /** What the search for the first separator tells: there is none, or
      the one found has no separator before it. */
  lemma FirstSeparator(s: string, sep: char)
    ensures IndexOf(s, [sep]).None? ==> sep !in s
    ensures IndexOf(s, [sep]).Some? ==>
      var k := IndexOf(s, [sep]).value; k < |s| && s[k] == sep && sep !in s[..k]
  {
    match IndexOf(s, [sep])
    case None =>
      forall i | 0 <= i < |s|
        ensures s[i] != sep
      {
        OccursAtChar(s, sep, i);
      }
    case Some(k) =>
      OccursAtChar(s, sep, k);
      forall i | 0 <= i < k
        ensures s[i] != sep
      {
        OccursAtChar(s, sep, i);
      }
  }

  lemma Regroup(a: string, sep: char, b: string, k: nat)
    requires k < |a| && a[k] == sep
    ensures a + [sep] + b == a[..k] + [sep] + (a[k + 1..] + [sep] + b)
  {
    assert a == a[..k] + [sep] + a[k + 1..];
  }

  /** The last piece of a split is whatever follows the last separator. */
  lemma {:induction false} SplitLastPiece(a: string, sep: char, b: string)
    requires sep !in b
    ensures var parts := Split(a + [sep] + b, sep); parts[|parts| - 1] == b
    decreases |a|
  {
    FirstSeparator(a, sep);
    match IndexOf(a, [sep])
    case None =>
      SplitAfterFirst(a, sep, b);
      SplitNoSeparator(b, sep);
      assert Split(a + [sep] + b, sep) == [a] + [b];
    case Some(k) =>
      var a1, a2 := a[..k], a[k + 1..];
      Regroup(a, sep, b, k);
      SplitAfterFirst(a1, sep, a2 + [sep] + b);
      SplitLastPiece(a2, sep, b);
      var rest := Split(a2 + [sep] + b, sep);
      assert Split(a + [sep] + b, sep) == [a1] + rest;
      assert ([a1] + rest)[|rest|] == rest[|rest| - 1];
  }

  function DigitChar(d: nat): char
    requires d < 10
  {
    (48 + d) as char
  }

  function DigitValue(c: char): nat
    requires IsDigit(c)
  {
    c as int - 48
  }

  /** `n.toString()` for a non-negative integer: decimal, no leading zeros. */
  function NatToString(n: nat): (s: string)
    ensures |s| >= 1 && IsDigits(s)
    ensures |s| > 1 ==> s[0] != '0'
    decreases n
  {
    if n < 10 then [DigitChar(n)]
    else NatToString(n / 10) + [DigitChar(n % 10)]
  }

  /** `n.toString()` for any integer. */
  function IntToString(n: int): string {
    if n < 0 then "-" + NatToString(-n) else NatToString(n)
  }

  /** The value of a run of decimal digits, leading zeros allowed. */
  function DigitsValue(s: string): nat
    requires IsDigits(s)
  {
    if |s| == 0 then 0
    else DigitsValue(s[..|s| - 1]) * 10 + DigitValue(s[|s| - 1])
  }

  lemma {:induction false} DigitsValueOfNatToString(n: nat)
    ensures DigitsValue(NatToString(n)) == n
    decreases n
  {
    if n >= 10 {
      var s := NatToString(n);
      assert s[..|s| - 1] == NatToString(n / 10);
      DigitsValueOfNatToString(n / 10);
    }
  }

  lemma {:induction false} DigitsValuePositive(s: string)
    requires IsDigits(s) && |s| >= 1 && s[0] != '0'
    ensures DigitsValue(s) >= 1
    decreases |s|
  {
    if |s| > 1 {
      DigitsValuePositive(s[..|s| - 1]);
    }
  }

  /** Decimal rendering is onto the digit strings without leading zeros. */
  lemma {:induction false} NatToStringOfDigitsValue(s: string)
    requires IsDigits(s) && |s| >= 1
    requires |s| > 1 ==> s[0] != '0'
    ensures NatToString(DigitsValue(s)) == s
    decreases |s|
  {
    if |s| > 1 {
      var init := s[..|s| - 1];
      DigitsValuePositive(init);
      NatToStringOfDigitsValue(init);
      var v := DigitsValue(s);
      assert v / 10 == DigitsValue(init) && v % 10 == DigitValue(s[|s| - 1]);
      assert s == init + [s[|s| - 1]];
    }
  }

  /** `s.padStart(2, '0')` */
  function PadStart2(s: string): (r: string)
    ensures |s| >= 2 ==> r == s
    ensures |s| < 2 ==> |r| == 2 && r[2 - |s|..] == s && forall i | 0 <= i < 2 - |s| :: r[i] == '0'
  {
    if |s| >= 2 then s
    else if |s| == 1 then "0" + s
    else "00"
  }
}

=== FILE: toyboard.dfy ===
/** The stand-alone toy board: an 8x8 grid of piece letters (upper case for
    White, lower case for Black, empty for a free square), moves by two
    clicks with no legality check, and a placeholder opponent that pushes
    one black piece a row down onto a free square. */
module ToyBoard {

  type Board = seq<seq<string>>

  /** A move of the opponent: source row and column, target row and column. */
  type Push = (nat, nat, nat, nat)

  predicate IsBoard(b: Board) {
    |b| == 8 && forall i | 0 <= i < 8 :: |b[i]| == 8
  }

  /** The letters the board holds. */
  const PieceLetters: string := "rnbqkpRNBQKP"

  predicate IsCell(s: string) {
    s == "" || (|s| == 1 && s[0] in PieceLetters)
  }

  /** An 8x8 board of piece letters and empty squares. */
  predicate WellFormed(b: Board) {
    IsBoard(b) && forall i, j | 0 <= i < 8 && 0 <= j < 8 :: IsCell(b[i][j])
  }

  const BlackBackRank: seq<string> := ["r", "n", "b", "q", "k", "b", "n", "r"]
  const BlackPawns: seq<string> := ["p", "p", "p", "p", "p", "p", "p", "p"]
  const EmptyRank: seq<string> := ["", "", "", "", "", "", "", ""]
  const WhitePawns: seq<string> := ["P", "P", "P", "P", "P", "P", "P", "P"]
  const WhiteBackRank: seq<string> := ["R", "N", "B", "Q", "K", "B", "N", "R"]

  /** Black on the top two rows, White on the bottom two. */
  function Initial(): Board {
    [BlackBackRank, BlackPawns, EmptyRank, EmptyRank, EmptyRank, EmptyRank, WhitePawns, WhiteBackRank]
  }

  function Occupied(s: string): nat {
    if s == "" then 0 else 1
  }

  /** The number of pieces in a row. */
  function RowCount(row: seq<string>): nat {
    if |row| == 0 then 0 else Occupied(row[0]) + RowCount(row[1..])
  }

  /** The number of pieces on the board. */
  function Count(b: Board): nat {
    if |b| == 0 then 0 else RowCount(b[0]) + Count(b[1..])
  }

  /** A row whose squares are all occupied holds one piece per square. */
  lemma {:induction false} FullRowCount(row: seq<string>)
    requires forall j | 0 <= j < |row| :: row[j] != ""
    ensures RowCount(row) == |row|
  {
    if |row| > 0 {
      FullRowCount(row[1..]);
    }
  }

  /** A row of empty squares holds no piece. */
  lemma {:induction false} EmptyRowCount(row: seq<string>)
    requires forall j | 0 <= j < |row| :: row[j] == ""
    ensures RowCount(row) == 0
  {
    if |row| > 0 {
      EmptyRowCount(row[1..]);
    }
  }

  lemma InitialWellFormed()
    ensures WellFormed(Initial())
  {
    var b := Initial();
    forall i, j | 0 <= i < 8 && 0 <= j < 8
      ensures IsCell(b[i][j])
    {
      assert b[i][j] == "" || b[i][j] == [b[i][j][0]];
    }
  }

  /** Counting from row `k` down: row `k` and the rows below it. */
  lemma CountFrom(b: Board, k: nat)
    requires k < |b|
    ensures Count(b[k..]) == RowCount(b[k]) + Count(b[k + 1..])
  {
    assert b[k..][1..] == b[k + 1..];
  }

  lemma BlackRowCounts()
    ensures RowCount(BlackBackRank) == 8 && RowCount(BlackPawns) == 8
  {
    assert forall j | 0 <= j < 8 :: |BlackBackRank[j]| == 1;
    FullRowCount(BlackBackRank);
    assert forall j | 0 <= j < 8 :: |BlackPawns[j]| == 1;
    FullRowCount(BlackPawns);
  }

  lemma WhiteRowCounts()
    ensures RowCount(WhitePawns) == 8 && RowCount(WhiteBackRank) == 8
  {
    assert forall j | 0 <= j < 8 :: |WhitePawns[j]| == 1;
    FullRowCount(WhitePawns);
    assert forall j | 0 <= j < 8 :: |WhiteBackRank[j]| == 1;
    FullRowCount(WhiteBackRank);
  }

  lemma EmptyRankCount()
    ensures RowCount(EmptyRank) == 0
  {
    EmptyRowCount(EmptyRank);
  }

  /** The count of an eight-row board, row by row. */
  lemma CountOfEightRows(b: Board)
    requires |b| == 8
    ensures Count(b) == RowCount(b[0]) + RowCount(b[1]) + RowCount(b[2]) + RowCount(b[3])
                      + RowCount(b[4]) + RowCount(b[5]) + RowCount(b[6]) + RowCount(b[7])
  {
    CountFrom(b, 7);
    CountFrom(b, 6);
    CountFrom(b, 5);
    CountFrom(b, 4);
    CountFrom(b, 3);
    CountFrom(b, 2);
    CountFrom(b, 1);
    CountFrom(b, 0);
    assert b[0..] == b;
  }

  /** The starting position has the thirty-two pieces. */
  lemma InitialCount()
    ensures Count(Initial()) == 32
  {
    BlackRowCounts();
    WhiteRowCounts();
    EmptyRankCount();
    CountOfEightRows(Initial());
  }

  /** Replacing one entry of a row changes its count by the difference. */
  lemma {:induction false} RowCountUpdate(row: seq<string>, j: nat, v: string)
    requires j < |row|
    ensures RowCount(row[j := v]) == RowCount(row) - Occupied(row[j]) + Occupied(v)
    decreases j
  {
    if j > 0 {
      assert row[j := v][1..] == row[1..][j - 1 := v];
      RowCountUpdate(row[1..], j - 1, v);
    }
  }

  /** Replacing one row of a board changes its count by the difference. */
  lemma {:induction false} CountUpdate(b: Board, i: nat, row: seq<string>)
    requires i < |b|
    ensures Count(b[i := row]) == Count(b) - RowCount(b[i]) + RowCount(row)
    decreases i
  {
    if i > 0 {
      assert b[i := row][1..] == b[1..][i - 1 := row];
      CountUpdate(b[1..], i - 1, row);
    }
  }

  /** The board with square (`i`, `j`) set to `v`. */
  function SetCell(b: Board, i: nat, j: nat, v: string): (r: Board)
    requires IsBoard(b) && i < 8 && j < 8
    ensures IsBoard(r) && r[i][j] == v
    ensures forall i', j' | 0 <= i' < 8 && 0 <= j' < 8 && (i', j') != (i, j) :: r[i'][j'] == b[i'][j']
    ensures Count(r) == Count(b) - Occupied(b[i][j]) + Occupied(v)
  {
    RowCountUpdate(b[i], j, v);
    CountUpdate(b, i, b[i][j := v]);
    b[i := b[i][j := v]]
  }

  /** Moves whatever is on (`i1`, `j1`) to (`i2`, `j2`) and empties the
      source; a move onto the square itself therefore removes the piece. */
  function Move(b: Board, i1: nat, j1: nat, i2: nat, j2: nat): (r: Board)
    requires IsBoard(b) && i1 < 8 && j1 < 8 && i2 < 8 && j2 < 8
    ensures IsBoard(r) && r[i1][j1] == ""
    ensures (i1, j1) != (i2, j2) ==> r[i2][j2] == b[i1][j1]
    ensures forall i, j | 0 <= i < 8 && 0 <= j < 8 && (i, j) != (i1, j1) && (i, j) != (i2, j2)
      :: r[i][j] == b[i][j]
    ensures (i1, j1) != (i2, j2) ==> Count(r) == Count(b) - Occupied(b[i2][j2])
    ensures (i1, j1) == (i2, j2) ==> Count(r) == Count(b) - Occupied(b[i1][j1])
  {
    SetCell(SetCell(b, i2, j2, b[i1][j1]), i1, j1, "")
  }

  /** A move keeps the board made of piece letters and empty squares. */
  lemma MoveKeepsWellFormed(b: Board, i1: nat, j1: nat, i2: nat, j2: nat)
    requires WellFormed(b) && i1 < 8 && j1 < 8 && i2 < 8 && j2 < 8
    ensures WellFormed(Move(b, i1, j1, i2, j2))
  {
  }

  /** Moving a piece takes at most one piece off the board: exactly one when
      it lands on another piece or on its own square. */
  lemma MoveCaptures(b: Board, i1: nat, j1: nat, i2: nat, j2: nat)
    requires IsBoard(b) && i1 < 8 && j1 < 8 && i2 < 8 && j2 < 8
    requires b[i1][j1] != ""
    ensures Count(Move(b, i1, j1, i2, j2)) == Count(b) - 1
        <==> (i1, j1) == (i2, j2) || b[i2][j2] != ""
    ensures Count(Move(b, i1, j1, i2, j2)) == Count(b)
        <==> (i1, j1) != (i2, j2) && b[i2][j2] == ""
  {
  }

  /** The square picked up by the first click, if any. */
  datatype Pick = NoSquare | Square(i: nat, j: nat)

  datatype ClickState = ClickState(board: Board, selected: Pick)

  /** A click on (`i`, `j`).  With a square picked up, the piece goes there
      unconditionally, the pick is dropped and the opponent is scheduled;
      otherwise an occupied square is picked up. */
  function ClickSquare(s: ClickState, i: nat, j: nat): (r: (ClickState, bool))
    requires IsBoard(s.board) && i < 8 && j < 8
    requires s.selected.Square? ==> s.selected.i < 8 && s.selected.j < 8
    ensures r.0.selected.Square? ==> r.0.selected.i < 8 && r.0.selected.j < 8
    ensures r.1 <==> s.selected.Square?
    ensures r.1 ==> r.0 == ClickState(Move(s.board, s.selected.i, s.selected.j, i, j), NoSquare)
    ensures !r.1 ==>
      && r.0.board == s.board
      && (r.0.selected == Square(i, j) <==> s.board[i][j] != "")
      && (r.0.selected.NoSquare? <==> s.board[i][j] == "")
  {
    match s.selected
    case Square(si, sj) => (ClickState(Move(s.board, si, sj, i, j), NoSquare), true)
    case NoSquare =>
      if s.board[i][j] != "" then (ClickState(s.board, Square(i, j)), false)
      else (s, false)
  }

  /** Clicking keeps the board well formed, and only a square holding a
      piece is ever picked up. */
  lemma ClickKeepsBoard(s: ClickState, i: nat, j: nat)
    requires WellFormed(s.board) && i < 8 && j < 8
    requires s.selected.Square? ==> s.selected.i < 8 && s.selected.j < 8
    ensures WellFormed(ClickSquare(s, i, j).0.board)
    ensures ClickSquare(s, i, j).0.selected.Square? ==> s.board[i][j] != ""
  {
    if s.selected.Square? {
      MoveKeepsWellFormed(s.board, s.selected.i, s.selected.j, i, j);
    }
  }

  /** `s.toLowerCase()` on the ASCII letters. */
  function LowerAscii(s: string): (r: string)
    ensures |r| == |s|
  {
    if |s| == 0 then ""
    else [if 'A' <= s[0] <= 'Z' then (s[0] as int + 32) as char else s[0]] + LowerAscii(s[1..])
  }

  /** A square holding a piece that lower-casing leaves unchanged. */
  predicate IsBlackCell(s: string) {
    s != "" && s == LowerAscii(s)
  }

  /** On a well-formed board the pieces lower-casing leaves unchanged are
      exactly Black's. */
  lemma BlackCellIsLowerLetter(s: string)
    requires IsCell(s)
    ensures IsBlackCell(s) <==> s != "" && s[0] in "rnbqkp"
  {
    if s != "" {
      assert LowerAscii(s) == [if 'A' <= s[0] <= 'Z' then (s[0] as int + 32) as char else s[0]];
    }
  }

  /** Lower-casing a one-letter square. */
  lemma LowerAsciiLetter(s: string)
    requires |s| == 1
    ensures LowerAscii(s) == [if 'A' <= s[0] <= 'Z' then (s[0] as int + 32) as char else s[0]]
  {
  }

  /** The starting position: Black's pieces fill the top two rows, the four
      rows between are free, and White's pieces fill the bottom two, each
      the upper-case letter of the Black piece in the same column. */
  lemma InitialSides()
    ensures forall j | 0 <= j < 8 :: IsBlackCell(Initial()[0][j]) && IsBlackCell(Initial()[1][j])
    ensures forall i, j | 2 <= i < 6 && 0 <= j < 8 :: Initial()[i][j] == ""
    ensures forall j | 0 <= j < 8 ::
      && Initial()[6][j] != "" && !IsBlackCell(Initial()[6][j]) && LowerAscii(Initial()[6][j]) == Initial()[1][j]
      && Initial()[7][j] != "" && !IsBlackCell(Initial()[7][j]) && LowerAscii(Initial()[7][j]) == Initial()[0][j]
  {
    var b := Initial();
    forall j | 0 <= j < 8
      ensures IsBlackCell(b[0][j]) && IsBlackCell(b[1][j])
      ensures b[6][j] != "" && !IsBlackCell(b[6][j]) && LowerAscii(b[6][j]) == b[1][j]
      ensures b[7][j] != "" && !IsBlackCell(b[7][j]) && LowerAscii(b[7][j]) == b[0][j]
    {
      LowerAsciiLetter(b[0][j]);
      LowerAsciiLetter(b[1][j]);
      LowerAsciiLetter(b[6][j]);
      LowerAsciiLetter(b[7][j]);
    }
  }

  /** A push of the piece on (`m.0`, `m.1`) one row down onto the free
      square (`m.2`, `m.3`). */
  predicate IsCandidate(b: Board, m: Push)
    requires IsBoard(b)
  {
    && m.0 < 7 && m.1 < 8 && m.2 == m.0 + 1 && m.3 == m.1
    && IsBlackCell(b[m.0][m.1]) && b[m.2][m.3] == ""
  }

  /** The pushes from row `i`, columns `j` onwards, left to right. */
  function RowCandidates(b: Board, i: nat, j: nat): (ms: seq<Push>)
    requires IsBoard(b) && i < 8 && j <= 8
    ensures forall m :: m in ms <==> m.0 == i && j <= m.1 && IsCandidate(b, m)
    decreases 8 - j
  {
    if j == 8 then []
    else
      var rest := RowCandidates(b, i, j + 1);
      if IsBlackCell(b[i][j]) && i + 1 < 8 && b[i + 1][j] == "" then [(i, j, i + 1, j)] + rest
      else rest
  }

  /** The pushes from row `i` downwards, in row-major order. */
  function CandidatesFrom(b: Board, i: nat): (ms: seq<Push>)
    requires IsBoard(b) && i <= 8
    ensures forall m :: m in ms <==> i <= m.0 && IsCandidate(b, m)
    decreases 8 - i
  {
    if i == 8 then [] else RowCandidates(b, i, 0) + CandidatesFrom(b, i + 1)
  }

  function Candidates(b: Board): (ms: seq<Push>)
    requires IsBoard(b)
    ensures forall m :: m in ms <==> IsCandidate(b, m)
  {
    CandidatesFrom(b, 0)
  }

  /** The candidate push that `pick`, the random draw, selects. */
  function Chosen(b: Board, pick: nat): (m: Push)
    requires IsBoard(b) && |Candidates(b)| > 0
    ensures IsCandidate(b, m)
  {
    var ms := Candidates(b);
    assert ms[pick % |ms|] in ms;
    ms[pick % |ms|]
  }

  /** The opponent's move: one of the candidate pushes, chosen by `pick`
      (the random draw, reduced to the number of candidates); with no
      candidate the board stays as it is.  A push never takes a piece. */
  function AiMove(b: Board, pick: nat): (r: Board)
    requires IsBoard(b)
    ensures IsBoard(r)
    ensures |Candidates(b)| == 0 ==> r == b
    ensures |Candidates(b)| > 0 ==> exists m | m in Candidates(b) :: r == Move(b, m.0, m.1, m.2, m.3)
    ensures Count(r) == Count(b)
  {
    if |Candidates(b)| == 0 then b
    else
      var m := Chosen(b, pick);
      Move(b, m.0, m.1, m.2, m.3)
  }

  /** The opponent keeps the board well formed. */
  lemma AiMoveKeepsWellFormed(b: Board, pick: nat)
    requires WellFormed(b)
    ensures WellFormed(AiMove(b, pick))
  {
    if |Candidates(b)| > 0 {
      var m := Chosen(b, pick);
      MoveKeepsWellFormed(b, m.0, m.1, m.2, m.3);
    }
  }

  /** The piece the opponent moves is a black one, and it ends up one row
      further down the same column. */
  lemma AiMovePushesBlack(b: Board, pick: nat)
    requires WellFormed(b)
    ensures |Candidates(b)| > 0 ==>
      var m := Chosen(b, pick);
      && b[m.0][m.1] != "" && b[m.0][m.1][0] in "rnbqkp"
      && AiMove(b, pick)[m.0 + 1][m.1] == b[m.0][m.1]
      && AiMove(b, pick)[m.0][m.1] == ""
  {
    if |Candidates(b)| > 0 {
      var m := Chosen(b, pick);
      assert AiMove(b, pick) == Move(b, m.0, m.1, m.2, m.3);
      BlackCellIsLowerLetter(b[m.0][m.1]);
    }
  }

  /** From the starting position the opponent can push exactly the eight
      black pawns. */
  lemma InitialCandidates()
    ensures forall m :: m in Candidates(Initial()) <==> m.0 == 1 && m.1 < 8 && m.2 == 2 && m.3 == m.1
  {
    var b := Initial();
    forall m: Push | m.0 == 1 && m.1 < 8 && m.2 == 2 && m.3 == m.1
      ensures IsCandidate(b, m)
    {
      BlackCellIsLowerLetter(b[1][m.1]);
    }
    forall m: Push | IsCandidate(b, m)
      ensures m.0 == 1
    {
      BlackCellIsLowerLetter(b[m.0][m.1]);
    }
  }
}

=== FILE: uci.dfy ===
/** The engine side of the game controller: how each line printed by the
    Stockfish worker is routed to one handler and parsed (a best move, a
    centipawn score or a principal-variation hint), the difficulty and
    think-time tables, and the commands the controller sends to the worker.
    The worker itself is not modelled: a line is an input, a command is an
    output value. */
module Uci {
  import opened Wrappers
  import opened Strings

  // ---------------------------------------------------------------------
  // Move tokens

  /** The move object built from an engine token. */
  datatype EngineMove = EngineMove(from: string, to: string, promotion: string)

  /** The token split of a best move: characters 0-1, 2-3 and 4, with `q`
      when there is no fifth character.  The token's length is not checked. */
  function MoveOfToken(token: string): (m: EngineMove)
    ensures |token| >= 4 ==> m.from == token[..2] && m.to == token[2..4]
    ensures |token| < 4 ==> m.from == token[..Min(2, |token|)] && m.to == token[Min(2, |token|)..]
    ensures |token| >= 5 ==> m.promotion == [token[4]]
    ensures |token| <= 4 ==> m.promotion == "q"
  {
    var promotion := Substring(token, 4, 5);
    EngineMove(Substring(token, 0, 2), Substring(token, 2, 4),
               if promotion == "" then "q" else promotion)
  }

  /** The long-algebraic token of a move: from, to, promotion. */
  function TokenOf(m: EngineMove): string {
    m.from + m.to + m.promotion
  }

  /** Two-character squares and a one-character promotion piece. */
  predicate WellShaped(m: EngineMove) {
    |m.from| == 2 && |m.to| == 2 && |m.promotion| == 1
  }

  lemma MoveOfTokenOfMove(m: EngineMove)
    requires WellShaped(m)
    ensures MoveOfToken(TokenOf(m)) == m
  {
    var t := TokenOf(m);
    assert t[..2] == m.from && t[2..4] == m.to && [t[4]] == m.promotion;
  }

  /** A four-character token is promoted to a queen by default. */
  lemma MoveOfFourCharToken(from: string, to: string)
    requires |from| == 2 && |to| == 2
    ensures MoveOfToken(from + to) == EngineMove(from, to, "q")
  {
    var t := from + to;
    assert t[..2] == from && t[2..4] == to;
  }

  /** Every five-character token is the token of the move it yields. */
  lemma TokenOfMoveOfToken(token: string)
    requires |token| == 5
    ensures TokenOf(MoveOfToken(token)) == token
  {
    var m := MoveOfToken(token);
    assert m.from + m.to + m.promotion == token[..2] + token[2..4] + [token[4]];
    assert token[..2] + token[2..4] + [token[4]] == token;
  }

  /** Characters after the fifth are dropped without complaint. */
  lemma LongTokenTruncated(token: string)
    requires |token| > 5
    ensures MoveOfToken(token) == MoveOfToken(token[..5])
  {
    var short := token[..5];
    assert short[..2] == token[..2] && short[2..4] == token[2..4] && short[4] == token[4];
  }

  // ---------------------------------------------------------------------
  // The three handlers' parsers

  /** The second field of `line.split(' ')`, unless there is none or it is
      the literal `null`. */
  function BestMoveToken(line: string): (r: Option<string>)
    ensures r.Some? ==> ' ' !in r.value && r.value != "null"
    ensures ' ' !in line ==> r.None?
  {
    var parts := Split(line, ' ');
    if ' ' !in line then
      SplitNoSeparator(line, ' ');
      None
    else if |parts| > 1 && parts[1] != "null" then Some(parts[1])
    else None
  }

  /** `BestMoveToken` only looks at the second field. */
  lemma BestMoveTokenOfField(line: string, field: string)
    requires |Split(line, ' ')| > 1 && Split(line, ' ')[1] == field
    ensures BestMoveToken(line) == if field == "null" then None else Some(field)
  {
    if ' ' !in line {
      SplitNoSeparator(line, ' ');
    }
  }

  /** A space-free field followed by a space or the end is the first piece. */
  lemma FirstFieldOf(field: string, tail: string)
    requires ' ' !in field
    requires |tail| == 0 || tail[0] == ' '
    ensures Split(field + tail, ' ')[0] == field
  {
    if |tail| == 0 {
      assert field + tail == field;
      SplitNoSeparator(field, ' ');
    } else {
      assert field + tail == field + [' '] + tail[1..];
      SplitAfterFirst(field, ' ', tail[1..]);
    }
  }

  /** The field after `bestmove ` is the token, whatever follows it. */
  lemma BestMoveTokenOfLine(token: string, tail: string)
    requires ' ' !in token
    requires |tail| == 0 || tail[0] == ' '
    ensures BestMoveToken("bestmove " + token + tail)
         == if token == "null" then None else Some(token)
  {
    var line := "bestmove " + token + tail;
    assert line == "bestmove" + [' '] + (token + tail);
    SplitAfterFirst("bestmove", ' ', token + tail);
    FirstFieldOf(token, tail);
    BestMoveTokenOfField(line, token);
  }

  const ScoreKey: string := "score cp "

  /** The pattern `score cp (-?\d+)` matches at index `i`. */
  predicate ScoreMatchAt(s: string, i: int) {
    && OccursAt(s, ScoreKey, i)
    && ((i + 9 < |s| && IsDigit(s[i + 9]))
        || (i + 10 < |s| && s[i + 9] == '-' && IsDigit(s[i + 10])))
  }

  /** `parseInt` of the captured group: an optional minus sign and the
      longest run of digits after it. */
  function ScoreValueAt(s: string, i: int): int
    requires ScoreMatchAt(s, i)
  {
    if IsDigit(s[i + 9]) then DigitsValue(TakeWhile(s[i + 9..], IsDigit))
    else 0 - DigitsValue(TakeWhile(s[i + 10..], IsDigit)) as int
  }

  /** The integer of the leftmost match of `score cp (-?\d+)`, if any. */
  function ParseScore(line: string): (r: Option<int>)
    ensures r.None? <==> forall i :: !ScoreMatchAt(line, i)
    ensures r.Some? ==> exists i :: && ScoreMatchAt(line, i)
                                    && (forall j | 0 <= j < i :: !ScoreMatchAt(line, j))
                                    && r.value == ScoreValueAt(line, i)
  {
    var p: nat -> bool := i => ScoreMatchAt(line, i);
    assert forall j: nat :: p(j) == ScoreMatchAt(line, j);
    match FirstIndex(0, |line| + 1, p)
    case None => None
    case Some(i) => Some(ScoreValueAt(line, i))
  }

  /** The leftmost match decides the score. */
  lemma ParseScoreAt(line: string, k: int)
    requires ScoreMatchAt(line, k)
    requires forall j | 0 <= j < k :: !ScoreMatchAt(line, j)
    ensures ParseScore(line) == Some(ScoreValueAt(line, k))
  {
    var r := ParseScore(line);
    var i :| && ScoreMatchAt(line, i)
             && (forall j | 0 <= j < i :: !ScoreMatchAt(line, j))
             && r.value == ScoreValueAt(line, i);
    assert i == k;
  }

  /** A run of digits followed by a non-digit is what `TakeWhile` reads. */
  lemma DigitRunAt(line: string, at: nat, digits: string, tail: string)
    requires IsDigits(digits) && |digits| >= 1
    requires |tail| == 0 || !IsDigit(tail[0])
    requires at <= |line| && line[at..] == digits + tail
    ensures at < |line| && IsDigit(line[at])
    ensures TakeWhile(line[at..], IsDigit) == digits
  {
    TakeWhileConcat(digits, tail, IsDigit);
    assert line[at] == line[at..][0] == digits[0];
  }

  lemma ScoreValueOfDigits(line: string, k: nat, n: nat)
    requires ScoreMatchAt(line, k) && IsDigit(line[k + 9])
    requires TakeWhile(line[k + 9..], IsDigit) == NatToString(n)
    ensures ScoreValueAt(line, k) == n
  {
    DigitsValueOfNatToString(n);
  }

  lemma ScoreValueOfNegativeDigits(line: string, k: nat, n: nat)
    requires ScoreMatchAt(line, k) && line[k + 9] == '-'
    requires TakeWhile(line[k + 10..], IsDigit) == NatToString(n)
    ensures ScoreValueAt(line, k) == 0 - n as int
  {
    DigitsValueOfNatToString(n);
  }

  /** A non-negative number after the key is read back exactly. */
  lemma ScoreValueOfNatural(prefix: string, n: nat, tail: string)
    requires |tail| == 0 || !IsDigit(tail[0])
    ensures var line := prefix + ScoreKey + (NatToString(n) + tail);
            ScoreMatchAt(line, |prefix|) && ScoreValueAt(line, |prefix|) == n
  {
    var digits := NatToString(n);
    var line := prefix + ScoreKey + (digits + tail);
    OccursAfter(prefix, ScoreKey, digits + tail);
    DigitRunAt(line, |prefix| + 9, digits, tail);
    ScoreValueOfDigits(line, |prefix|, n);
  }

  /** A negative number after the key is read back exactly. */
  lemma ScoreValueOfNegative(prefix: string, n: nat, tail: string)
    requires |tail| == 0 || !IsDigit(tail[0])
    ensures var line := prefix + ScoreKey + ("-" + (NatToString(n) + tail));
            ScoreMatchAt(line, |prefix|) && ScoreValueAt(line, |prefix|) == 0 - n as int
  {
    var digits := NatToString(n);
    var rest := "-" + (digits + tail);
    var line := prefix + ScoreKey + rest;
    var k := |prefix|;
    OccursAfter(prefix, ScoreKey, rest);
    assert line[k + 9] == rest[0] == '-';
    assert line[k + 10..] == rest[1..] == digits + tail;
    DigitRunAt(line, k + 10, digits, tail);
    ScoreValueOfNegativeDigits(line, k, n);
  }

  /** The number after the key is read back exactly. */
  lemma ScoreValueOfNumber(prefix: string, cp: int, tail: string)
    requires |tail| == 0 || !IsDigit(tail[0])
    ensures var line := prefix + ScoreKey + (IntToString(cp) + tail);
            ScoreMatchAt(line, |prefix|) && ScoreValueAt(line, |prefix|) == cp
  {
    if cp < 0 {
      var digits := NatToString(-cp);
      assert IntToString(cp) == "-" + digits;
      assert IntToString(cp) + tail == "-" + (digits + tail);
      ScoreValueOfNegative(prefix, -cp, tail);
    } else {
      ScoreValueOfNatural(prefix, cp, tail);
    }
  }

  /** A score written after a prefix in which `score cp ` does not start
      parses back to itself, provided the number is not followed by another
      digit. */
  lemma ParseScoreOfLine(prefix: string, cp: int, tail: string)
    requires forall j | 0 <= j < |prefix| :: !OccursAt(prefix + ScoreKey, ScoreKey, j)
    requires |tail| == 0 || !IsDigit(tail[0])
    ensures ParseScore(prefix + ScoreKey + IntToString(cp) + tail) == Some(cp)
  {
    var head := prefix + ScoreKey;
    var rest := IntToString(cp) + tail;
    var line := head + rest;
    assert prefix + ScoreKey + IntToString(cp) + tail == line;
    forall j | 0 <= j < |prefix|
      ensures !ScoreMatchAt(line, j)
    {
      NoOccurrenceExtended(head, rest, ScoreKey, j);
    }
    ScoreValueOfNumber(prefix, cp, tail);
    ParseScoreAt(line, |prefix|);
  }

  predicate IsNotWhitespace(c: char) {
    !IsWhitespace(c)
  }

  const PvKey: string := "pv "

  /** The pattern `pv (\S+)` matches at index `i`. */
  predicate PvMatchAt(s: string, i: int) {
    OccursAt(s, PvKey, i) && i + 3 < |s| && !IsWhitespace(s[i + 3])
  }

  /** The group captured by the leftmost match of `pv (\S+)`: the longest
      run of non-white-space characters after that `pv `. */
  function HintToken(line: string): (r: Option<string>)
    ensures r.None? <==> forall i :: !PvMatchAt(line, i)
    ensures r.Some? ==> exists i :: && PvMatchAt(line, i)
                                    && (forall j | 0 <= j < i :: !PvMatchAt(line, j))
                                    && r.value == TakeWhile(line[i + 3..], IsNotWhitespace)
    ensures r.Some? ==> |r.value| >= 1 && forall k | 0 <= k < |r.value| :: !IsWhitespace(r.value[k])
  {
    var p: nat -> bool := i => PvMatchAt(line, i);
    assert forall j: nat :: p(j) == PvMatchAt(line, j);
    match FirstIndex(0, |line| + 1, p)
    case None =>
      assert forall i :: !PvMatchAt(line, i);
      None
    case Some(i) =>
      assert PvMatchAt(line, i) && forall j | 0 <= j < i :: !PvMatchAt(line, j);
      var rest := line[i + 3..];
      assert IsNotWhitespace(rest[0]);
      Some(TakeWhile(rest, IsNotWhitespace))
  }

  /** The leftmost match decides the hint. */
  lemma HintTokenAt(line: string, k: int)
    requires PvMatchAt(line, k)
    requires forall j | 0 <= j < k :: !PvMatchAt(line, j)
    ensures HintToken(line) == Some(TakeWhile(line[k + 3..], IsNotWhitespace))
  {
    var r := HintToken(line);
    var i :| && PvMatchAt(line, i)
             && (forall j | 0 <= j < i :: !PvMatchAt(line, j))
             && r.value == TakeWhile(line[i + 3..], IsNotWhitespace);
    assert i == k;
  }

  /** A token written after a prefix in which `pv ` does not start is the
      hint, provided white space or the end follows it. */
  lemma HintTokenOfLine(prefix: string, token: string, tail: string)
    requires forall j | 0 <= j < |prefix| :: !OccursAt(prefix + PvKey, PvKey, j)
    requires |token| >= 1 && forall k | 0 <= k < |token| :: !IsWhitespace(token[k])
    requires |tail| == 0 || IsWhitespace(tail[0])
    ensures HintToken(prefix + PvKey + token + tail) == Some(token)
  {
    var head := prefix + PvKey;
    var line := prefix + PvKey + token + tail;
    var k := |prefix|;
    assert line == head + (token + tail);
    assert line[k..k + 3] == PvKey;
    forall j | 0 <= j < k
      ensures !PvMatchAt(line, j)
    {
      NoOccurrenceExtended(head, token + tail, PvKey, j);
    }
    assert line[k + 3..] == token + tail;
    TakeWhileConcat(token, tail, IsNotWhitespace);
    assert line[k + 3] == token[0];
    HintTokenAt(line, k);
  }

  /** The squares shown by the hint dialog. */
  datatype Hint = Hint(from: string, to: string)

  /** The hint move's characters 0-1 and 2-3. */
  function HintOf(token: string): (h: Hint)
    ensures |token| >= 4 ==> h.from == token[..2] && h.to == token[2..4]
    ensures |token| < 4 ==> h.from == token[..Min(2, |token|)] && h.to == token[Min(2, |token|)..]
  {
    Hint(Substring(token, 0, 2), Substring(token, 2, 4))
  }

  // ---------------------------------------------------------------------
  // Evaluation bands

  /** The five messages of the evaluation panel, in integer centipawns. */
  datatype Band = WhiteWinning | BlackWinning | WhiteBetter | BlackBetter | Equal

  /** The thresholds, in the order the code compares them: above 2 pawns, below -2, above 0.5,
      below -0.5, otherwise equal. */
  function BandOf(cp: int): (b: Band)
    ensures b == WhiteWinning <==> cp > 200
    ensures b == WhiteBetter <==> 50 < cp <= 200
    ensures b == Equal <==> -50 <= cp <= 50
    ensures b == BlackBetter <==> -200 <= cp < -50
    ensures b == BlackWinning <==> cp < -200
  {
    if cp > 200 then WhiteWinning
    else if cp < -200 then BlackWinning
    else if cp > 50 then WhiteBetter
    else if cp < -50 then BlackBetter
    else Equal
  }

  /** How strongly a band favours White, from -2 to 2. */
  function Favour(b: Band): int {
    match b
    case WhiteWinning => 2
    case WhiteBetter => 1
    case Equal => 0
    case BlackBetter => -1
    case BlackWinning => -2
  }

  /** A better score never shows a band less favourable to White. */
  lemma BandMonotone(a: int, b: int)
    requires a <= b
    ensures Favour(BandOf(a)) <= Favour(BandOf(b))
  {
  }

  /** The bands are symmetric between the two sides. */
  lemma BandAntisymmetric(cp: int)
    ensures Favour(BandOf(-cp)) == -Favour(BandOf(cp))
  {
  }

  // ---------------------------------------------------------------------
  // Routing

  /** The handler a line goes to. */
  datatype Route = ToBestMove | ToEvaluation | ToHint | Ignored

  /** The ordered conditions: `bestmove` prefix first, then an `info` line with
      `score cp`, then an `info` line with `pv`; anything else is dropped. */
  function RouteOf(line: string): Route {
    if StartsWith(line, "bestmove") then ToBestMove
    else if StartsWith(line, "info") && Contains(line, "score cp") then ToEvaluation
    else if StartsWith(line, "info") && Contains(line, "pv") then ToHint
    else Ignored
  }

  /** What one engine line makes the controller do. */
  datatype Action =
    | PlayMove(move: EngineMove)
    | ShowEvaluation(cp: int, band: Band)
    | ShowHint(hint: Hint)
    | NoAction

  function HandleLine(line: string): (a: Action)
    ensures a.PlayMove? ==>
      && StartsWith(line, "bestmove") && BestMoveToken(line).Some?
      && a.move == MoveOfToken(BestMoveToken(line).value)
    ensures a.ShowEvaluation? ==>
      && StartsWith(line, "info") && Contains(line, "score cp")
      && ParseScore(line) == Some(a.cp) && a.band == BandOf(a.cp)
    ensures a.ShowHint? ==>
      && StartsWith(line, "info") && !Contains(line, "score cp") && Contains(line, "pv")
      && HintToken(line).Some? && a.hint == HintOf(HintToken(line).value)
    ensures !StartsWith(line, "bestmove") && !StartsWith(line, "info") ==> a == NoAction
  {
    match RouteOf(line)
    case ToBestMove =>
      (match BestMoveToken(line)
       case Some(token) => PlayMove(MoveOfToken(token))
       case None => NoAction)
    case ToEvaluation =>
      (match ParseScore(line)
       case Some(cp) => ShowEvaluation(cp, BandOf(cp))
       case None => NoAction)
    case ToHint =>
      (match HintToken(line)
       case Some(token) => ShowHint(HintOf(token))
       case None => NoAction)
    case Ignored => NoAction
  }

  lemma InfoIsNotBestMove(line: string)
    requires StartsWith(line, "info")
    ensures !StartsWith(line, "bestmove")
  {
    assert line[0] == line[..4][0] == 'i';
  }

  /** Each line reaches at most one handler, and which one is decided by the
      ordered conditions alone. */
  lemma RouteCharacterised(line: string)
    ensures RouteOf(line) == ToBestMove <==> StartsWith(line, "bestmove")
    ensures RouteOf(line) == ToEvaluation <==> StartsWith(line, "info") && Contains(line, "score cp")
    ensures RouteOf(line) == ToHint
        <==> StartsWith(line, "info") && !Contains(line, "score cp") && Contains(line, "pv")
    ensures RouteOf(line) == Ignored
        <==> !StartsWith(line, "bestmove")
             && (!StartsWith(line, "info") || (!Contains(line, "score cp") && !Contains(line, "pv")))
  {
    if StartsWith(line, "info") {
      InfoIsNotBestMove(line);
    }
  }

  /** A move is played only for a `bestmove` line with a non-null second field. */
  lemma PlayMoveOnlyFromBestMove(line: string)
    ensures HandleLine(line).PlayMove?
        <==> StartsWith(line, "bestmove") && BestMoveToken(line).Some?
    ensures HandleLine(line).PlayMove? ==> HandleLine(line).move == MoveOfToken(BestMoveToken(line).value)
  {
  }

  /** An `info` line carrying `score cp` never reaches the hint handler, even
      when it also carries a principal variation. */
  lemma ScoreLineNeverHints(line: string)
    requires StartsWith(line, "info") && Contains(line, "score cp")
    ensures !HandleLine(line).ShowHint? && !HandleLine(line).PlayMove?
    ensures HandleLine(line).ShowEvaluation? <==> ParseScore(line).Some?
  {
    InfoIsNotBestMove(line);
  }

  /** A hint is shown only for an `info` line with `pv` and without `score cp`. */
  lemma HintOnlyWithoutScore(line: string)
    ensures HandleLine(line).ShowHint?
        <==> StartsWith(line, "info") && !Contains(line, "score cp") && Contains(line, "pv")
             && HintToken(line).Some?
  {
    RouteCharacterised(line);
  }

  /** Lines that start with neither keyword are dropped. */
  lemma OtherLinesIgnored(line: string)
    requires !StartsWith(line, "bestmove") && !StartsWith(line, "info")
    ensures HandleLine(line) == NoAction
  {
  }

  /** A `bestmove` line plays its space-free second field, unless that is
      `null`. */
  lemma BestMoveLine(token: string, tail: string)
    requires ' ' !in token
    requires |tail| == 0 || tail[0] == ' '
    ensures HandleLine("bestmove " + token + tail)
         == if token == "null" then NoAction else PlayMove(MoveOfToken(token))
  {
    var line := "bestmove " + token + tail;
    assert line[..8] == "bestmove";
    BestMoveTokenOfLine(token, tail);
  }

  // ---------------------------------------------------------------------
  // Worked lines

  lemma BestMoveWithPromotion(line: string)
    requires line == "bestmove e7e8q"
    ensures HandleLine(line) == PlayMove(EngineMove("e7", "e8", "q"))
  {
    var m := EngineMove("e7", "e8", "q");
    assert TokenOf(m) == "e7e8q";
    MoveOfTokenOfMove(m);
    assert line == "bestmove " + "e7e8q" + "";
    BestMoveLine("e7e8q", "");
  }

  lemma BestMoveWithPonder(line: string)
    requires line == "bestmove e2e4 ponder e7e5"
    ensures HandleLine(line) == PlayMove(EngineMove("e2", "e4", "q"))
  {
    PonderLineShape(line);
    BestMoveLine("e2e4", " ponder e7e5");
    assert "e2" + "e4" == "e2e4";
    MoveOfFourCharToken("e2", "e4");
  }

  lemma PonderLineShape(line: string)
    requires line == "bestmove e2e4 ponder e7e5"
    ensures line == "bestmove " + "e2e4" + " ponder e7e5"
  {
  }

  lemma BestMoveNull(line: string)
    requires line == "bestmove null"
    ensures HandleLine(line) == NoAction
  {
    assert line == "bestmove " + "null" + "";
    BestMoveLine("null", "");
  }

  /** With a bare `bestmove ` the empty second field is still played. */
  lemma BestMoveEmptyField(line: string)
    requires line == "bestmove "
    ensures HandleLine(line) == PlayMove(EngineMove("", "", "q"))
  {
    assert line == "bestmove " + "" + "";
    BestMoveLine("", "");
  }

  /** An `info` line with `score cp` shows the band of the score read from
      it, and does nothing when no score can be read. */
  lemma ScoreLineEvaluates(line: string)
    requires StartsWith(line, "info") && Contains(line, "score cp")
    ensures ParseScore(line).Some? ==>
      HandleLine(line) == ShowEvaluation(ParseScore(line).value, BandOf(ParseScore(line).value))
    ensures ParseScore(line).None? ==> HandleLine(line) == NoAction
  {
    InfoIsNotBestMove(line);
  }

  /** An `info` line with `pv` and no `score cp` shows the hint read from
      it, and does nothing when no token follows a `pv `. */
  lemma PvLineHints(line: string)
    requires StartsWith(line, "info") && !Contains(line, "score cp") && Contains(line, "pv")
    ensures HintToken(line).Some? ==> HandleLine(line) == ShowHint(HintOf(HintToken(line).value))
    ensures HintToken(line).None? ==> HandleLine(line) == NoAction
  {
    InfoIsNotBestMove(line);
  }

  lemma ScoreAndPvLineShape(line: string)
    requires line == "info depth 12 score cp -35 pv e7e5"
    ensures StartsWith(line, "info") && Contains(line, "score cp")
  {
    assert line[..4] == "info";
    assert line[14..14 + 8] == "score cp";
    ContainsAt(line, "score cp", 14);
  }

  /** The score written in `ScoreAndPvLine`'s line. */
  lemma ScoreAndPvLineDigits()
    ensures IntToString(-35) == "-35"
  {
    assert NatToString(35) == NatToString(3) + [DigitChar(5)];
  }

  lemma ScoreAndPvLineScore(line: string)
    requires line == "info depth 12 score cp -35 pv e7e5"
    ensures ParseScore(line) == Some(-35)
  {
    ScoreAndPvLineDigits();
    assert line == "info depth 12 " + ScoreKey + "-35" + " pv e7e5";
    ScoreKeyNotInPrefix("info depth 12 ");
    ParseScoreOfLine("info depth 12 ", -35, " pv e7e5");
  }

  lemma ScoreKeyNotInPrefix(prefix: string)
    requires prefix == "info depth 12 "
    ensures forall j | 0 <= j < |prefix| :: !OccursAt(prefix + ScoreKey, ScoreKey, j)
  {
    var head := prefix + ScoreKey;
    assert forall j | 0 <= j < |prefix| :: head[j] != 's';
    NoOccurrenceBefore(head, ScoreKey, |prefix|);
  }

  /** In the lines Stockfish prints, `seldepth` comes before the score; its
      `s` cannot start a match. */
  lemma SeldepthPrefix(prefix: string)
    requires prefix == "info depth 1 seldepth 1 multipv 1 "
    ensures forall j | 0 <= j < |prefix| :: !OccursAt(prefix + ScoreKey, ScoreKey, j)
  {
    var head := prefix + ScoreKey;
    assert forall j | 0 <= j < |prefix| :: head[j] != 's' || head[j + 1] != 'c';
    NoOccurrenceBefore(head, ScoreKey, |prefix|);
  }

  /** The score written in `SeldepthLineEvaluates`'s line. */
  lemma SeldepthLineDigits()
    ensures IntToString(112) == "112"
  {
    assert NatToString(11) == NatToString(1) + [DigitChar(1)];
    assert NatToString(112) == NatToString(11) + [DigitChar(2)];
  }

  lemma SeldepthLineShape(line: string)
    requires line == "info depth 1 seldepth 1 multipv 1 " + "score cp 112 nodes 20 pv e2e4"
    ensures StartsWith(line, "info") && Contains(line, "score cp")
  {
    assert line[0] == 'i' && line[1] == 'n' && line[2] == 'f' && line[3] == 'o';
    OccursAtChars(line, "info", 0);
    OccursAtChars(line, "score cp", 34);
    ContainsAt(line, "score cp", 34);
  }

  /** A full search line: the score after `seldepth` and `multipv` is read
      and shown as White being better. */
  lemma SeldepthLineEvaluates(line: string)
    requires line == "info depth 1 seldepth 1 multipv 1 " + "score cp 112 nodes 20 pv e2e4"
    ensures ParseScore(line) == Some(112)
    ensures HandleLine(line) == ShowEvaluation(112, WhiteBetter)
  {
    var prefix := "info depth 1 seldepth 1 multipv 1 ";
    SeldepthLineDigits();
    assert line == prefix + ScoreKey + IntToString(112) + " nodes 20 pv e2e4";
    SeldepthPrefix(prefix);
    ParseScoreOfLine(prefix, 112, " nodes 20 pv e2e4");
    SeldepthLineShape(line);
    ScoreLineEvaluates(line);
  }

  /** A line with both a score and a principal variation only updates the
      evaluation. */
  lemma ScoreAndPvLine(line: string)
    requires line == "info depth 12 score cp -35 pv e7e5"
    ensures HandleLine(line) == ShowEvaluation(-35, Equal)
  {
    ScoreAndPvLineShape(line);
    ScoreAndPvLineScore(line);
    ScoreLineEvaluates(line);
  }

  /** `score cp` cannot occur in a line whose only `s` is at index `k` and
      is not followed by `core c`. */
  lemma NoScoreCp(line: string, k: nat)
    requires forall j | 0 <= j < |line| && j != k :: line[j] != 's'
    requires k + 6 < |line| && line[k + 6] != 'c'
    ensures !Contains(line, "score cp")
  {
    forall i | 0 <= i && i + 8 <= |line|
      ensures !OccursAt(line, "score cp", i)
    {
      if i == k {
        MismatchAt(line, "score cp", i, 6);
      } else {
        MismatchAt(line, "score cp", i, 0);
      }
    }
  }

  lemma MateLineHasPv(line: string)
    requires line == "info depth 5 multipv 1 score mate 3 pv e2e4"
    ensures StartsWith(line, "info") && Contains(line, "pv")
  {
    MatePvShape(line);
    var head := "info depth 5 multi";
    assert line[..4] == head[..4] == "info";
    OccursAfter("info depth 5 multi", "pv", " 1 score mate 3 pv e2e4");
    ContainsAt(line, "pv", 18);
  }

  lemma MatePvShape(line: string)
    requires line == "info depth 5 multipv 1 score mate 3 pv e2e4"
    ensures line == "info depth 5 multi" + "pv" + " 1 score mate 3 pv e2e4"
  {
  }

  lemma MateLineHasNoScoreCp(line: string)
    requires line == "info depth 5 multipv 1 score mate 3 pv e2e4"
    ensures !Contains(line, "score cp")
  {
    assert forall j | 0 <= j < |line| && j != 23 :: line[j] != 's';
    assert line[29] == 'm';
    NoScoreCp(line, 23);
  }

  lemma MateLineToken(line: string)
    requires line == "info depth 5 multipv 1 score mate 3 pv e2e4"
    ensures HintToken(line) == Some("1")
  {
    MateLineShape(line);
    PvKeyNotInPrefix("info depth 5 multi");
    HintTokenOfLine("info depth 5 multi", "1", " score mate 3 pv e2e4");
  }

  lemma MateLineShape(line: string)
    requires line == "info depth 5 multipv 1 score mate 3 pv e2e4"
    ensures line == "info depth 5 multi" + PvKey + "1" + " score mate 3 pv e2e4"
  {
  }

  lemma PvKeyNotInPrefix(prefix: string)
    requires prefix == "info depth 5 multi"
    ensures forall j | 0 <= j < |prefix| :: !OccursAt(prefix + PvKey, PvKey, j)
  {
    var head := prefix + PvKey;
    assert forall j | 0 <= j < |prefix| :: head[j] != 'p' || head[j + 1] != 'v';
    NoOccurrenceBefore(head, PvKey, |prefix|);
  }

  /** A mate-score line is routed to the hint handler, and its first `pv `
      is the tail of `multipv`, so the hint shown is `1`. */
  lemma MateLineHintsMultipv(line: string)
    requires line == "info depth 5 multipv 1 score mate 3 pv e2e4"
    ensures HandleLine(line) == ShowHint(Hint("1", ""))
  {
    MateLineHasPv(line);
    MateLineHasNoScoreCp(line);
    MateLineToken(line);
    PvLineHints(line);
  }

  // ---------------------------------------------------------------------
  // Difficulty and think time

  /** `Skill Level` for a difficulty: `(level - 1) * 5` clamped to 0..20. */
  function SkillLevel(level: int): (s: nat)
    ensures s <= 20
    ensures 1 <= level <= 5 ==> s == (level - 1) * 5
    ensures level <= 1 ==> s == 0
    ensures level >= 5 ==> s == 20
  {
    Max(0, Min(20, (level - 1) * 5))
  }

  lemma SkillLevelMonotone(a: int, b: int)
    requires a <= b
    ensures SkillLevel(a) <= SkillLevel(b)
  {
  }

  /** The `go movetime` budget: 1, 2, 3 or 5 seconds for levels 1 to 4,
      two seconds for anything else. */
  function MoveTimeMs(level: int): (ms: nat)
    ensures ms in {1000, 2000, 3000, 5000}
    ensures !(1 <= level <= 4) ==> ms == 2000
  {
    if level == 1 then 1000
    else if level == 2 then 2000
    else if level == 3 then 3000
    else if level == 4 then 5000
    else 2000
  }

  /** Harder levels think strictly longer and play at least as strongly. */
  lemma DifficultyIncreasing(a: int, b: int)
    requires 1 <= a < b <= 4
    ensures MoveTimeMs(a) < MoveTimeMs(b)
    ensures SkillLevel(a) < SkillLevel(b)
  {
  }

  /** Outside 1..4 the think time falls back to level 2's while the skill
      level does not: it keeps being clamped. */
  lemma OutOfRangeLevel(level: int)
    requires !(1 <= level <= 4)
    ensures MoveTimeMs(level) == MoveTimeMs(2)
    ensures level <= 1 ==> SkillLevel(level) == 0
    ensures level >= 5 ==> SkillLevel(level) == 20
  {
  }

  // ---------------------------------------------------------------------
  // Commands sent to the engine

  datatype Command =
    | UciHello
    | SetOption(name: string, value: nat)
    | PositionFen(fen: string)
    | GoMovetime(ms: nat)
    | GoDepth(depth: nat)
    | EvalRequest
    | Stop

  /** The text posted to the worker.  The keyword says which command it is,
      and the argument after it reads back as the one sent. */
  function Render(c: Command): (text: string)
    ensures c.UciHello? <==> text == "uci"
    ensures c.EvalRequest? <==> text == "eval"
    ensures c.Stop? <==> text == "stop"
    ensures c.SetOption? ==>
      var n := |c.name|;
      && StartsWith(text, "setoption name ") && |text| > 22 + n
      && text[15..15 + n] == c.name && text[15 + n..22 + n] == " value "
      && IsDigits(text[22 + n..]) && DigitsValue(text[22 + n..]) == c.value
      && (|text| == 23 + n || text[22 + n] != '0')
    ensures c.PositionFen? ==> StartsWith(text, "position fen ") && text[13..] == c.fen
    ensures c.GoMovetime? ==>
      && StartsWith(text, "go movetime ") && IsDigits(text[12..]) && DigitsValue(text[12..]) == c.ms
      && |text| > 12 && (|text| == 13 || text[12] != '0')
    ensures c.GoDepth? ==>
      && StartsWith(text, "go depth ") && IsDigits(text[9..]) && DigitsValue(text[9..]) == c.depth
      && |text| > 9 && (|text| == 10 || text[9] != '0')
  {
    match c
    case UciHello => "uci"
    case SetOption(name, value) =>
      SetOptionText(name, value);
      "setoption name " + name + " value " + NatToString(value)
    case PositionFen(fen) => "position fen " + fen
    case GoMovetime(ms) =>
      DigitsValueOfNatToString(ms);
      var text := "go movetime " + NatToString(ms);
      assert text[12..] == NatToString(ms);
      text
    case GoDepth(depth) =>
      DigitsValueOfNatToString(depth);
      var text := "go depth " + NatToString(depth);
      assert text[9..] == NatToString(depth);
      text
    case EvalRequest => "eval"
    case Stop => "stop"
  }

  /** Where the option name and the value sit in a `setoption` text. */
  lemma SetOptionText(name: string, value: nat)
    ensures var text := "setoption name " + name + " value " + NatToString(value);
      var n := |name|;
      && StartsWith(text, "setoption name ") && |text| > 22 + n
      && text[15..15 + n] == name && text[15 + n..22 + n] == " value "
      && IsDigits(text[22 + n..]) && DigitsValue(text[22 + n..]) == value
      && (|text| == 23 + n || text[22 + n] != '0')
  {
    var digits := NatToString(value);
    DigitsValueOfNatToString(value);
    var head := "setoption name " + name;
    var text := head + " value " + digits;
    var n := |name|;
    assert text[..15] == head[..15] == "setoption name ";
    assert text[15..15 + n] == head[15..] == name;
    assert text[15 + n..22 + n] == " value ";
    assert text[22 + n..] == digits;
  }

  /** A `setoption` text ends with a space and the value's digits. */
  lemma SetOptionLastField(name: string, value: nat)
    ensures Render(SetOption(name, value)) == ("setoption name " + name + " value") + [' '] + NatToString(value)
  {
    assert " value " == " value" + [' '];
  }

  /** The engine reads an option's value back from the last field. */
  lemma SetOptionValueReadable(name: string, value: nat)
    ensures var parts := Split(Render(SetOption(name, value)), ' ');
            && IsDigits(parts[|parts| - 1])
            && DigitsValue(parts[|parts| - 1]) == value
  {
    var text := Render(SetOption(name, value));
    var digits := NatToString(value);
    SetOptionLastField(name, value);
    assert text == ("setoption name " + name + " value") + [' '] + digits;
    LastFieldOf("setoption name " + name + " value", digits);
    var parts := Split(text, ' ');
    assert parts[|parts| - 1] == digits;
    DigitsValueOfNatToString(value);
  }

  /** The last space-separated field of a text ending in a space and a run
      of digits is that run. */
  lemma LastFieldOf(head: string, digits: string)
    requires IsDigits(digits)
    ensures var parts := Split(head + [' '] + digits, ' '); parts[|parts| - 1] == digits
  {
    DigitsExclude(digits, ' ');
    SplitLastPiece(head, ' ', digits);
  }

  /** The controller events that post commands. */
  datatype Request =
    | Startup                               // the constructor's handshake
    | StartupOptions                        // the options posted 100 ms later
    | SetLevel(level: int)                  // the difficulty selector
    | AiTurn(active: bool, fen: string, level: int)
    | Evaluate(fen: string)                 // after every applied move
    | HintRequest(active: bool, fen: string)
    | HintStop                              // posted one second after a hint request

  function SkillCommand(level: int): Command {
    SetOption("Skill Level", SkillLevel(level))
  }

  /** A command that starts a search on the current position. */
  predicate IsSearch(c: Command) {
    c.GoMovetime? || c.GoDepth? || c.EvalRequest?
  }

  /** Every search command is immediately preceded by a `position fen`. */
  predicate SearchesPositioned(cmds: seq<Command>) {
    forall k | 0 <= k < |cmds| && IsSearch(cmds[k]) :: k > 0 && cmds[k - 1].PositionFen?
  }

  function Emit(r: Request): (cmds: seq<Command>)
    ensures SearchesPositioned(cmds)
    ensures r.Startup? ==> cmds == [UciHello, SetOption("Skill Level", SkillLevel(2))]
    ensures r.StartupOptions? ==>
      cmds == [SetOption("Contempt", 0), SetOption("Min Split Depth", 0),
               SetOption("Threads", 1), SetOption("Hash", 16)]
    ensures r.SetLevel? ==> cmds == [SetOption("Skill Level", SkillLevel(r.level))]
    ensures r.AiTurn? && r.active ==> cmds == [PositionFen(r.fen), GoMovetime(MoveTimeMs(r.level))]
    ensures r.Evaluate? ==> cmds == [PositionFen(r.fen), EvalRequest]
    ensures r.HintRequest? && r.active ==> cmds == [PositionFen(r.fen), GoDepth(6)]
    ensures (r.AiTurn? || r.HintRequest?) && !r.active ==> cmds == []
    ensures r.HintStop? ==> cmds == [Stop]
  {
    match r
    case Startup => [UciHello, SkillCommand(2)]
    case StartupOptions =>
      [SetOption("Contempt", 0), SetOption("Min Split Depth", 0),
       SetOption("Threads", 1), SetOption("Hash", 16)]
    case SetLevel(level) => [SkillCommand(level)]
    case AiTurn(active, fen, level) =>
      if active then [PositionFen(fen), GoMovetime(MoveTimeMs(level))] else []
    case Evaluate(fen) => [PositionFen(fen), EvalRequest]
    case HintRequest(active, fen) =>
      if active then [PositionFen(fen), GoDepth(6)] else []
    case HintStop => [Stop]
  }

  /** The command stream of a sequence of events. */
  function EmitAll(rs: seq<Request>): seq<Command> {
    if |rs| == 0 then [] else EmitAll(rs[..|rs| - 1]) + Emit(rs[|rs| - 1])
  }

  lemma SearchesPositionedAppend(a: seq<Command>, b: seq<Command>)
    requires SearchesPositioned(a) && SearchesPositioned(b)
    ensures SearchesPositioned(a + b)
  {
    forall k | 0 <= k < |a + b| && IsSearch((a + b)[k])
      ensures k > 0 && (a + b)[k - 1].PositionFen?
    {
      if k >= |a| {
        assert (a + b)[k] == b[k - |a|];
        assert (a + b)[k - 1] == b[k - 1 - |a|];
      }
    }
  }

  /** Whatever the order of events, the engine never receives a search
      command that is not directly preceded by the position to search. */
  lemma {:induction false} EmitAllSearchesPositioned(rs: seq<Request>)
    ensures SearchesPositioned(EmitAll(rs))
    decreases |rs|
  {
    if |rs| > 0 {
      EmitAllSearchesPositioned(rs[..|rs| - 1]);
      SearchesPositionedAppend(EmitAll(rs[..|rs| - 1]), Emit(rs[|rs| - 1]));
    }
  }

  /** A level change, and the handshake at start-up with its default level
      2, set the engine's `Skill Level` option: the engine reads the option
      name and the level's skill value, at most 20, back from the text. */
  lemma SkillLevelSent(level: int)
    ensures var text := Render(Emit(SetLevel(level))[0]);
      && text[15..26] == "Skill Level" && IsDigits(text[33..])
      && DigitsValue(text[33..]) == SkillLevel(level) <= 20
    ensures var text := Render(Emit(Startup)[1]);
      && Render(Emit(Startup)[0]) == "uci"
      && text[15..26] == "Skill Level" && IsDigits(text[33..]) && DigitsValue(text[33..]) == 5
  {
  }
}

=== FILE: wrappers.dfy ===
/** Optional values, standing in for JavaScript's `null`/`undefined` results. */
module Wrappers {

  datatype Option<+T> = None | Some(value: T)
}
